=== FILE: README.md ===
# AAC board: a Dafny model of the app's state transitions

The app is a React Native communication board. A user taps picture tiles
("boxes") to build a sentence. They can arrange tiles in folders, page
through them, edit and re-add them, and use a server over a socket for
three things:
- images for a tile,
- predictions that complete the sentence,
- speech in a recorded voice.

The model covers the layer of pure state transitions beneath the screens:

- **Board** is the home screen (`app/screens/HomeScreen.tsx`). It holds the
  top-level tiles, the folders, the open folder, the pending selection and
  the sentence. Each event handler is one total function: add, delete,
  re-add, reset, swap, tap, long-press, edit-save, delete word and delete
  letter. The list of re-addable default tiles is derived from the tiles.
- **Paging** cuts the tiles on screen into pages.
- **Sentence** and **Text** hold the sentence rules. Text defines the
  JavaScript primitives they use: `trim()`, `split(" ")` and `join(" ")`.
- **Connection** is the socket provider: connection flag, status, the
  append-only response log and the send guard.
- **EditBox** and **CreateBox** are the two tile dialogs and the way each
  matches picture responses to its request. The edit dialog scans the log
  from a cursor for its request id. The create dialog only looks at the
  newest entry.
- **HomeMessages** covers the home screen's "Predict" and "Speak" guards and
  its effect that reacts to the newest response.
- **Settings** and **BarSettings** are the settings form and the voice-button
  editor.
- **Types** and **Defaults** hold the records, colours, default tiles and
  default settings. **Seqs** holds `Array.prototype.filter`.

JavaScript details are written out where the handlers depend on them:
- Truthiness: a string is truthy when non-empty, an array always.
- The strict inequality between an absent (`undefined`) and a `null` id.
- `arr[0] || ""`.
- `slice(0, -1)`, with the sentence as a sequence of code points rather than UTF-16 code units (see "## Left out").
- `Math.ceil`.
- The ECMAScript white-space set stripped by `trim()`.

## Model

| member | source | states |
|---|---|---|
| Defaults.Numbered | app/data/defaultBoxes.tsx:5-71 | the default tiles are talk boxes without an image, with their labels and colours in order, numbered consecutively |
| Defaults.DefaultIdsConsecutive | app/data/defaultBoxes.tsx:5-71 | there are fifty default tiles and the tile at position i has id i + 1 |
| Board.Initial | app/screens/HomeScreen.tsx:41-43 | the screen starts with the default tiles, so with nothing to re-add, and with no folders, nothing open or selected and an empty sentence |
| Board.FindIndex | app/screens/HomeScreen.tsx:319-320 | `findIndex` by id: none exactly when no tile has the id; otherwise a position holding the id with no earlier one |
| Board.FindBox | app/screens/HomeScreen.tsx:372-383 | `find` by id: nothing exactly for a `null` id or an id no tile carries; otherwise the tile at the first position holding the id |
| Board.FindFolder | app/screens/HomeScreen.tsx:236 | the first folder with the uuid, or none when no folder has it |
| Board.CurrentBoxes | app/screens/HomeScreen.tsx:180-182 | the open folder's tiles when a folder is open and exists, none when it is missing, the top level otherwise |
| Board.MaxOf | app/screens/HomeScreen.tsx:264-270 | `Math.max` of a non-empty list is an upper bound that occurs in it |
| Board.NewFolderBoxId | app/screens/HomeScreen.tsx:242-244 | a tile added in a folder gets one more than the largest id in that folder, above every id there, and 1 in an empty folder |
| Board.NewTopLevelId | app/screens/HomeScreen.tsx:264-270 | on a non-empty board the new id is one more than the largest current or default id, so above all of them; on an empty board it is 1 |
| Board.AddToFolder | app/screens/HomeScreen.tsx:239-261 | adding inside a folder appends a talk tile to that folder only, with id one more than the folder's largest (1 in an empty folder), so fresh; top level and the other folders are untouched |
| Board.AddTopLevel | app/screens/HomeScreen.tsx:263-290 | adding at top level appends one tile and keeps the earlier tiles. Its id is one more than the largest current or default id (1 on an empty board), so it is fresh. A folder tile also gets a new empty folder under the supplied uuid, with type FolderBox and that folder id |
| Board.AddNewBox | app/screens/HomeScreen.tsx:233-292 | dispatch: top level when no folder is open, the open folder when it exists, no change when the open folder is missing |
| Board.RemoveId | app/screens/HomeScreen.tsx:299-301 | `filter` by id removes every tile with the id and keeps the multiset of the others |
| Board.Delete | app/screens/HomeScreen.tsx:294-312 | deleting removes the id from the open folder only, or from the top level only when no folder is open |
| Board.DeletedBoxes | app/screens/HomeScreen.tsx:151-153 | a tile is on the re-add list exactly when it is a default tile whose id no current tile carries, and the list keeps default order |
| Board.FilterKeepsIncreasingIds | app/screens/HomeScreen.tsx:151-153 | `filter` keeps a list with increasing ids increasing |
| Board.ReAdd | app/screens/HomeScreen.tsx:314-316 | re-adding appends the tile and changes nothing else |
| Board.Reset | app/screens/HomeScreen.tsx:155-157 | resetting restores the default tiles and keeps folders, selection and sentence |
| Board.SwapIds | app/screens/HomeScreen.tsx:318-329 | `swapBoxes` is a permutation. With either id missing nothing changes; otherwise the tiles at the two first positions trade places and every other position is untouched |
| Board.SwapInFolder | app/screens/HomeScreen.tsx:336-351 | a swap inside the open folder changes only that folder's tiles |
| Board.LongSelect | app/screens/HomeScreen.tsx:390-401 | long-press selects when nothing is selected and clears on the same tile. On another tile it swaps the two top-level tiles and clears |
| Board.Tap | app/screens/HomeScreen.tsx:331-388 | a tap with a selection pending swaps in the current context and clears the selection. A tap on the selected tile clears it. A folder tile opens its folder; any other tap appends the tile's text to the sentence. With the open folder missing, tiles, folders and sentence stay as they were, and a plain tap there changes nothing at all |
| Board.EditSave | app/screens/HomeScreen.tsx:131-139 | every tile with the edited tile's id takes the new text, colour and picture; the rest stay; with nothing being edited nothing changes |
| BoardLemmas.SwapTwiceRestores | app/screens/HomeScreen.tsx:318-329 | with distinct ids, swapping the same two ids twice restores the list |
| BoardLemmas.SwapKeepsUniqueIds | app/screens/HomeScreen.tsx:318-329 | a swap keeps ids distinct |
| BoardLemmas.FilterKeepsUniqueIds | app/screens/HomeScreen.tsx:299-301 | filtering keeps ids distinct |
| BoardLemmas.RemoveIdKeepsUniqueIds | app/screens/HomeScreen.tsx:294-312 | removing an id keeps ids distinct |
| BoardLemmas.DefaultBoxesUnique | app/data/defaultBoxes.tsx:5-71 | the default tiles have distinct ids |
| BoardLemmas.ResetLeavesNothingDeleted | app/screens/HomeScreen.tsx:151-157 | after a reset the re-add list is empty |
| BoardLemmas.DeleteOffersReAdd | app/screens/HomeScreen.tsx:151-153 | deleting a default tile at top level puts it on the re-add list |
| BoardLemmas.ReAddTakesItOffTheList | app/screens/HomeScreen.tsx:314-316 | re-adding a tile takes it off the list, and leaves every tile with another id on or off the list as before |
| BoardLemmas.AddKeepsDeletedBoxes | app/screens/HomeScreen.tsx:263-290 | adding at top level to a non-empty board leaves the re-add list unchanged |
| BoardLemmas.EmptyBoardAddHidesDefault | app/screens/HomeScreen.tsx:264-270 | on an empty board the first new tile takes id 1, so default tile "Hi" is neither on the board nor on the re-add list |
| BoardLemmas.AppendFreshKeepsUniqueIds | app/screens/HomeScreen.tsx:290 | appending a tile with an absent id keeps ids distinct |
| BoardLemmas.AddKeepsWellFormed | app/screens/HomeScreen.tsx:233-292 | adding keeps ids distinct at top level and in every folder |
| BoardLemmas.DeleteKeepsWellFormed | app/screens/HomeScreen.tsx:294-312 | deleting keeps ids distinct everywhere |
| BoardLemmas.TapKeepsWellFormed | app/screens/HomeScreen.tsx:331-388 | a tap keeps ids distinct everywhere |
| BoardLemmas.EditSaveKeepsWellFormed | app/screens/HomeScreen.tsx:131-139 | edit-save keeps ids distinct everywhere |
| BoardLemmas.StepKeepsWellFormed | app/screens/HomeScreen.tsx:131-411 | every handler keeps ids distinct at top level and within each folder, provided re-adding is offered only for tiles on the re-add list |
| BoardLemmas.InitialWellFormed | app/screens/HomeScreen.tsx:41 | the first screen has distinct ids |
| BoardLemmas.LongPressTwiceClears | app/screens/HomeScreen.tsx:390-401 | long-pressing the same tile twice leaves the board as it was |
| BoardLemmas.LongPressSwapUndone | app/screens/HomeScreen.tsx:390-401 | a long-press swap repeated with the same two tiles restores the top level |
| Paging.NumPages | app/screens/HomeScreen.tsx:184 | `ceil((n + 1) / perPage)` is at least 1 and the pages hold n tiles with room for one more |
| Paging.Slice | app/screens/HomeScreen.tsx:187 | `slice` clamps its bounds to the length |
| Paging.Pages | app/screens/HomeScreen.tsx:184-188 | the pages laid side by side are exactly the tiles in order. Every page holds at most perPage tiles, every page but the last is full, and the last has room for the add tile |
| Paging.FlattenPrefix | app/screens/HomeScreen.tsx:186-188 | the first m pages laid side by side are the tiles before position m * perPage |
| Text.Trim | app/screens/HomeScreen.tsx:404 | `trim()`: the text with a white-space prefix and suffix cut off, empty exactly for all-white-space text, and otherwise starting and ending with non-white-space; text already trimmed is unchanged |
| Text.TrimIdempotent | app/screens/HomeScreen.tsx:404 | trimming twice is trimming once |
| Text.Split | app/screens/HomeScreen.tsx:404 | `split(" ")` gives at least one piece, no piece contains a space, and one piece exactly when there is no space |
| Text.JoinSplit | app/screens/HomeScreen.tsx:404-406 | `join(" ")` undoes `split(" ")` |
| Text.SplitJoin | app/screens/HomeScreen.tsx:404-406 | `split(" ")` undoes `join(" ")` of space-free pieces |
| Text.JoinDropLastParts | app/screens/HomeScreen.tsx:405-406 | for space-free pieces, dropping the last piece and rejoining leaves the joined text before its last space, or "" when it has none |
| Text.DropLastWord | app/screens/HomeScreen.tsx:404-406 | splitting on spaces, dropping the last piece and rejoining leaves the text before its last space, or "" when it has none |
| Sentence.AppendWord | app/screens/HomeScreen.tsx:375-384 | the word follows the sentence, separated by one space only when the sentence is non-empty |
| Sentence.DeleteLetter | app/screens/HomeScreen.tsx:409-411 | exactly one trailing character goes; "" stays "" |
| Sentence.DeleteWord | app/screens/HomeScreen.tsx:403-407 | the trimmed sentence up to its last space, or "" when it has none |
| Sentence.BoxLabel | app/components/EditBoxModal.tsx:199 | the saved label is never empty: the trimmed text, or "New Box" for blank text |
| Sentence.DeleteLetterUndoesType | app/screens/HomeScreen.tsx:409-411 | deleting a letter undoes typing one |
| Sentence.DeleteWordUndoesAppend | app/screens/HomeScreen.tsx:375-407 | on a trimmed sentence, "Delete Word" undoes tapping a tile whose text is one word without white space |
| Seqs.Filter | app/screens/HomeScreen.tsx:151-153 | `filter` keeps exactly the accepted elements with their multiplicities, and everything when all are accepted |
| Seqs.FilterConcat | app/screens/HomeScreen.tsx:299-301 | filtering distributes over concatenation, so kept elements keep their order |
| Connection.Mount | app/provider/WebSocketProvider.tsx:34-45 | mounting sets status connecting and creates a socket; flag and log are untouched |
| Connection.Handle | app/provider/WebSocketProvider.tsx:47-81 | connect sets connected and the flag; disconnect clears both. A connect error sets only the status. A listed response event is appended at the end; any other event changes nothing |
| Connection.Send | app/provider/WebSocketProvider.tsx:26-32 | a message is emitted, on its own event name, exactly when a socket exists and is connected |
| Connection.RunAppendsResponses | app/provider/WebSocketProvider.tsx:65-81 | the log only grows: a run appends exactly the listed responses, in arrival order |
| Connection.DeliveredConcat | app/provider/WebSocketProvider.tsx:76-81 | the responses delivered by two runs in a row are those of the first followed by those of the second |
| Connection.ConnectedIffLastLink | app/provider/WebSocketProvider.tsx:47-57 | from the mounted start, connected exactly when some connect callback is followed by no disconnect callback |
| Connection.RunKeepsStatusConsistent | app/provider/WebSocketProvider.tsx:47-62 | status Connected implies connected, connected implies status Connected or Error, and Disconnecting is never set, across any run |
| Connection.MountedStartConsistent | app/provider/WebSocketProvider.tsx:20-35 | the mounted start is consistent and its log is empty |
| Connection.NoSendBeforeConnect | app/provider/WebSocketProvider.tsx:26-32 | before the first connect callback nothing can be sent |
| EditBox.Open | app/components/EditBoxModal.tsx:47-54 | the edit dialog opens with the tile's text, colour and picture, no picture list, no request in flight, and its cursor at the log's start |
| EditBox.FirstDecisive | app/components/EditBoxModal.tsx:69-121 | the first entry from a position on that answers the current id with pictures or an error, and no earlier such entry |
| EditBox.Scan | app/components/EditBoxModal.tsx:67-126 | the scan changes the dialog exactly when it is generating and an unread answer to its id with pictures or an error exists. It then stops at the first one: the wait ends, the id is cleared, and the cursor moves just past that entry. Pictures replace the images and select the first; an error keeps them |
| EditBox.ScanMessages | app/components/EditBoxModal.tsx:67-126 | the loop as written computes Scan |
| EditBox.Generate | app/components/EditBoxModal.tsx:145-169 | blank text sends nothing; otherwise the trimmed text goes out under the fresh id, which becomes the current id, and the dialog waits |
| EditBox.Save | app/components/EditBoxModal.tsx:189-213 | no picture refuses. Otherwise it hands back the label, colour and picture, moves the cursor to the log's end, drops a non-empty id, keeps an empty or absent one, and leaves the generating flag |
| EditBox.FirstDecisiveStable | app/components/EditBoxModal.tsx:68-69 | a found answer stays the first one as the log grows |
| EditBox.ScanStableUnderGrowth | app/components/EditBoxModal.tsx:67-126 | once found, later responses do not change the scan's result |
| EditBox.ScanIdempotent | app/components/EditBoxModal.tsx:67-126 | rerunning the effect on the same log changes nothing |
| EditBox.GenerateThenAnswer | app/components/EditBoxModal.tsx:145-169 | after "Generate", a picture response under the new id is taken, whatever came before it |
| EditBox.OtherAnswersIgnored | app/components/EditBoxModal.tsx:71-78 | a response on another event or under another id leaves the waiting dialog unchanged |
| EditBox.SaveWhileGeneratingStalls | app/components/EditBoxModal.tsx:189-213 | saving during a request leaves the dialog generating with no id, which no response with an id, or without one, can end |
| EditBox.OpenThenSaveKeepsBox | app/components/EditBoxModal.tsx:189-199 | saving an unchanged dialog on a tile with a picture and trimmed text writes the tile back |
| CreateBox.Initial | app/components/CreateBoxModal.tsx:49-56 | the create dialog starts empty: no text, red, no pictures or picture, not a folder, not waiting |
| CreateBox.InitialRefusesGenerate | app/components/CreateBoxModal.tsx:49-56 | a freshly shown create dialog refuses "Generate" and stays as it is |
| CreateBox.InitialRefusesAdd | app/components/CreateBoxModal.tsx:49-56 | a freshly shown create dialog refuses "Add" and stays as it is |
| CreateBox.OnMessages | app/components/CreateBoxModal.tsx:69-106 | only the newest entry is read, only while generating. A picture response shows the pictures, selects the first and ends the wait; an error response ends the wait; anything else changes nothing |
| CreateBox.Generate | app/components/CreateBoxModal.tsx:126-144 | blank text sends nothing; otherwise the trimmed text goes out with no id and the dialog waits |
| CreateBox.Add | app/components/CreateBoxModal.tsx:162-179 | no picture refuses. Otherwise it hands over label, colour, picture and folder flag and clears the form to text "", Red, no images, no picture, not a folder |
| CreateBox.AddLandsOnBoard | app/components/CreateBoxModal.tsx:162-179 | a tile added through the dialog lands at the end of the top level with its label, colour, picture and a fresh id |
| CreateBox.AddClearsForm | app/components/CreateBoxModal.tsx:172-177 | a second add from the cleared form hands over the default label, Red and no folder flag |
| CreateBox.StaleAnswerAccepted | app/components/CreateBoxModal.tsx:69-106 | as written, a second request resolves at once with the previous answer still at the end of the log |
| CreateBox.StaleAnswerAlwaysAccepted | app/components/CreateBoxModal.tsx:69-106 | as written, for every log whose newest entry is a picture response, the wait ends with its pictures even when the whole log predates the request; the corrected effect keeps waiting |
| CreateBox.OnMessagesIdempotent | app/components/CreateBoxModal.tsx:69-106 | running the effect twice on the same log is running it once |
| CreateBox.OnMessagesSince | app/components/CreateBoxModal.tsx:69-106 | the effect restricted to entries that arrived after the request |
| CreateBox.FreshAnswerAccepted | app/components/CreateBoxModal.tsx:69-106 | with the restriction, the old answer does not end the wait and the new one does |
| Settings.Resync | app/components/SettingsModal.tsx:42-51 | showing the dialog copies all five current fields into the form |
| Settings.Save | app/components/SettingsModal.tsx:54-87 | saving succeeds exactly for a form in range and then saves exactly the form |
| Settings.Reset | app/components/SettingsModal.tsx:89-107 | reset puts the defaults in the form and saves them |
| Settings.ResetThenSave | app/data/defaultSettings.tsx:3-9 | the defaults pass the range checks |
| Settings.OpenThenSave | app/components/SettingsModal.tsx:42-87 | opening and saving keeps the settings when in range and is refused otherwise |
| Settings.SwitchesNotChecked | app/components/SettingsModal.tsx:54-59 | the two switches never affect validity |
| Settings.SavedInRange | app/components/SettingsModal.tsx:54-59 | a saved form has margin 0 to 50, 1 to 20 tiles per row and a long press of 300 to 2000 ms |
| BarSettings.AddButton | app/components/BarSettingsModal.tsx:52-63 | refused at ten or more; otherwise "New Button" without a recording is appended |
| BarSettings.DeleteButton | app/components/BarSettingsModal.tsx:65-71 | refused with one button left; otherwise exactly the entry at the index goes and the rest keep their order |
| BarSettings.UpdateButton | app/components/BarSettingsModal.tsx:73-80 | only the entry at the index changes; the length stays |
| BarSettings.ShowAddTile | app/components/BarSettingsModal.tsx:114 | the add tile shows exactly when "Add" would take effect |
| BarSettings.EditsKeepBounds | app/components/BarSettingsModal.tsx:52-80 | any sequence of edits keeps a list of one to ten buttons within one to ten |
| BarSettings.InitialEditsKeepBounds | app/screens/HomeScreen.tsx:56-60 | starting from the home screen's three buttons, edits keep one to ten |
| BarSettings.DeleteForgetsUpdate | app/components/BarSettingsModal.tsx:65-80 | updating a button and then deleting it is the same as deleting it |
| BarSettings.AddThenDeleteLast | app/components/BarSettingsModal.tsx:54-71 | adding and deleting the new last button restores the list |
| HomeMessages.PredictRequest | app/screens/HomeScreen.tsx:414-440 | "Predict" is refused exactly for blank text; otherwise the untrimmed sentence goes out |
| HomeMessages.SelectedVoice | app/screens/HomeScreen.tsx:455-456 | a voice exists exactly when the index is in range and its uri is non-empty |
| HomeMessages.Speak | app/screens/HomeScreen.tsx:454-511 | "Speak" is refused for no voice, then no text, then no connection, in that order; otherwise the voice and the untrimmed sentence go out |
| HomeMessages.ReactWith | app/screens/HomeScreen.tsx:514-571 | each newest entry is handled once, by the first matching branch in order. A synthesis answer with an audio url plays that url. Otherwise a prediction answer with options opens the dialog with exactly those options, and nothing else touches the dialog. Otherwise a prediction error, then any error, is reported with its text |
| HomeMessages.AsWrittenNeverReportsErrors | app/screens/HomeScreen.tsx:548-565 | as written, no error is ever reported |
| HomeMessages.AsWrittenDropsPredictError | app/screens/HomeScreen.tsx:548-556 | a failed prediction passes silently as written and is reported when the error is read from the body |
| HomeMessages.ReportsPredictErrors | app/screens/HomeScreen.tsx:548-556 | reading the error from the body, every new failed prediction is reported with its text |
| HomeMessages.ReactOnce | app/screens/HomeScreen.tsx:518-568 | running the effect again on the same log does nothing more |
| HomeMessages.SelectPredictOption | app/screens/HomeScreen.tsx:442-452 | choosing an option replaces the whole sentence and empties and closes the dialog |
| HomeMessages.PredictRoundTrip | app/screens/HomeScreen.tsx:414-452 | a sentence predicted while connected goes out; its answer opens the dialog; choosing an option makes it the sentence |
| HomeMessages.OfflinePredictDropped | app/screens/HomeScreen.tsx:414-511 | offline, "Predict" is dropped silently by the socket while "Speak" refuses |
| HomeMessages.SpeakDelivered | app/screens/HomeScreen.tsx:454-511 | what "Speak" sends, the socket emits |
| HomeMessages.InitialButtonsCannotSpeak | app/screens/HomeScreen.tsx:56-60 | the three initial buttons carry no recording, so "Speak" is refused |

## Left out

- Rendering, styles, animations and navigation hold no state logic and are not modelled.
- Paging: the number of tiles per page comes from window-size float arithmetic (app/screens/HomeScreen.tsx:163-178). It is a positive parameter here.
- AsyncStorage loading and saving is I/O and is not modelled. So is its JSON encoding.
- uuid generation is a parameter: `uuid` in `Board.AddNewBox`, `freshId` in `EditBox.Generate`.
- The socket library is not modelled: transport, reconnection back-off, teardown on unmount. Its callbacks are the events of `Connection.Handle`.
- Audio recording and playback, image picking, uploads, toasts and alerts are outputs or I/O. Playing audio and showing options are `HomeMessages.Reaction` values.
- The picture-request timeouts of both dialogs are not modelled. The edit dialog's timeout reads the request id through a closure captured before the request, so its behaviour depends on render timing.
- A response whose nested `data` object is missing would throw on access. Responses are records that always carry it.
- A JSON `null` request id in a response is not represented: ids are present or absent. After "Save" clears the current id to `null`, such a response would pass the id check in the source (app/components/EditBoxModal.tsx:75) and its pictures would end the wait.
- EditBox.SaveWhileGeneratingStalls: holds for responses whose id is a string or absent; a `null`-id response, not modelled, would end the wait.
- Sentence.DeleteLetter: the sentence is a sequence of code points, so a trailing character outside the Basic Multilingual Plane goes in one step; `slice(0, -1)` removes one UTF-16 code unit and leaves a lone surrogate, needing a second press.
- Sentence.DeleteLetterUndoesType: holds per code point; in the source, typing a character outside the Basic Multilingual Plane takes two deletions to undo.
- Board.SwapInFolder: the source copies the folder record shallowly, so its swap writes into the `containedBoxes` array React state shares. The model swaps functionally.
- Board.AddToFolder: the source pushes onto the folder's array in place, which React state shares. The model appends functionally.
- Settings.Save: validity is a function of the form here. In the source it is state recomputed by an effect, which is stale for the render right after a change.
- Settings.IsValid: form fields are integers here. The source's number fields could hold fractions.
- BarSettings: "Save" hands the working list back unchanged, so the list `ApplyAll` produces is what is saved. It has no member of its own.
- HomeMessages.ReactWith: the source remembers the handled entry by object identity. The model uses its position, which names one entry because the log only grows.
- Board.LongSelect: the source's `id === null` branch cannot be reached from its callers, which pass numbers; it is not modelled.
- Board.OpenFolder, Board.CloseFolder, Board.DeleteWord and Board.DeleteLetter only delegate to the sentence or folder field and carry no contract; the properties are stated on the Sentence members.

## Findings

| source | as written | input that shows it | evidently intended | confidence | as-written member | corrected member |
|---|---|---|---|---|---|---|
| app/screens/HomeScreen.tsx:548-565 | reads the error from `lastMessage.error`, but log entries hold only `event` and `data` | a "PREDICT" answer with no options and body error "model unavailable" | the error text from the response body is reported | not executed | HomeMessages.AsWrittenDropsPredictError | HomeMessages.ReportsPredictErrors |
| app/components/CreateBoxModal.tsx:69-106 | takes the newest log entry whenever the dialog is generating, even when it came before the request | a first answer `cat.png` in the log, then "Generate" again for "dog" | only a response that arrived after the request ends the wait | not executed | CreateBox.StaleAnswerAccepted | CreateBox.FreshAnswerAccepted |

=== FILE: bar_settings.dfy ===
/** The voice-button editor of app/components/BarSettingsModal.tsx: a local
    copy of the buttons that can grow to ten entries and never drops below
    one through deletion. */
module BarSettings {
  import opened Wrappers

  /** A voice button: a label and an optional recording uri. */
  datatype VoiceButton = VoiceButton(text: string, uri: Option<string>)

  const MaxButtons: nat := 10

  /** The buttons the home screen starts with. */
  const InitialButtons: seq<VoiceButton> := [
    VoiceButton("Option 1", None),
    VoiceButton("Option 2", None),
    VoiceButton("Option 3", None)
  ]

  /** "Add": refused at ten or more buttons; otherwise a "New Button"
      without a recording goes at the end. */
  function AddButton(l: seq<VoiceButton>): (r: seq<VoiceButton>)
    ensures |l| >= MaxButtons ==> r == l
    ensures |l| < MaxButtons ==> r == l + [VoiceButton("New Button", None)]
  {
    if |l| >= MaxButtons then l else l + [VoiceButton("New Button", None)]
  }

  /** "Delete": refused when exactly one button is left; otherwise the
      button at `index` goes and the others keep their order. An index out
      of range removes nothing. */
  function DeleteButton(l: seq<VoiceButton>, index: int): (r: seq<VoiceButton>)
    ensures |l| == 1 ==> r == l
    ensures |l| != 1 && 0 <= index < |l| ==>
      && |r| == |l| - 1
      && (forall i | 0 <= i < index :: r[i] == l[i])
      && (forall i | index <= i < |r| :: r[i] == l[i + 1])
    ensures !(0 <= index < |l|) ==> r == l
  {
    if |l| == 1 then l
    else if 0 <= index < |l| then l[..index] + l[index + 1..]
    else l
  }

  /** "Update": the button at `index` is replaced, the others stay. */
  function UpdateButton(l: seq<VoiceButton>, index: int, b: VoiceButton): (r: seq<VoiceButton>)
    ensures |r| == |l|
    ensures forall i | 0 <= i < |l| :: r[i] == if i == index then b else l[i]
  {
    seq(|l|, i requires 0 <= i < |l| => if i == index then b else l[i])
  }

  /** The add tile is shown below ten buttons, exactly when "Add" would
      take effect. */
  function ShowAddTile(l: seq<VoiceButton>): (r: bool)
    ensures r <==> AddButton(l) != l
  {
    |l| < MaxButtons
  }

  /** The editor's operations. */
  datatype Edit = Add | Delete(index: int) | Update(index: int, button: VoiceButton)

  function Apply(l: seq<VoiceButton>, e: Edit): seq<VoiceButton> {
    match e
    case Add => AddButton(l)
    case Delete(index) => DeleteButton(l, index)
    case Update(index, button) => UpdateButton(l, index, button)
  }

  function ApplyAll(l: seq<VoiceButton>, es: seq<Edit>): seq<VoiceButton>
    decreases |es|
  {
    if |es| == 0 then l else ApplyAll(Apply(l, es[0]), es[1..])
  }

  /** Any sequence of edits keeps between one and ten buttons when it
      starts there. */
  lemma {:induction false} EditsKeepBounds(l: seq<VoiceButton>, es: seq<Edit>)
    requires 1 <= |l| <= MaxButtons
    ensures 1 <= |ApplyAll(l, es)| <= MaxButtons
    decreases |es|
  {
    if |es| > 0 {
      EditsKeepBounds(Apply(l, es[0]), es[1..]);
    }
  }

  /** The editor starts from the home screen's three buttons, so it always
      holds one to ten. */
  lemma InitialEditsKeepBounds(es: seq<Edit>)
    ensures 1 <= |ApplyAll(InitialButtons, es)| <= MaxButtons
  {
    EditsKeepBounds(InitialButtons, es);
  }

  /** Updating a button and deleting it leaves the same list as deleting
      it, unless it is the last button left, which cannot be deleted. */
  lemma DeleteForgetsUpdate(l: seq<VoiceButton>, index: int, b: VoiceButton)
    requires |l| != 1
    ensures DeleteButton(UpdateButton(l, index, b), index) == DeleteButton(l, index)
  {
    var u := UpdateButton(l, index, b);
    if 0 <= index < |l| {
      assert u[..index] == l[..index];
      assert u[index + 1..] == l[index + 1..];
    }
  }

  /** Adding at below ten buttons and then deleting the new last button
      restores the list. */
  lemma AddThenDeleteLast(l: seq<VoiceButton>)
    requires 1 <= |l| < MaxButtons
    ensures DeleteButton(AddButton(l), |l|) == l
  {
    assert (l + [VoiceButton("New Button", None)])[..|l|] == l;
  }
}

=== FILE: board.dfy ===
/** The board state of the home screen (app/screens/HomeScreen.tsx): the
    top-level tiles, the folders, the open folder, the pending selection and
    the sentence, with one pure transition per event handler. */
module Board {
  import opened Wrappers
  import opened Types
  import opened Seqs
  import Defaults
  import Sentence

  datatype Board = Board(
    boxes: seq<BoxInfo>,
    folders: seq<FolderInfo>,
    openFolder: Option<string>,
    selected: Option<int>,
    sentence: string)

  /** The screen as first rendered, before anything is loaded from storage:
      the default tiles, so nothing to re-add, no folders, nothing open or
      selected and an empty sentence. */
  function Initial(): (r: Board)
    ensures r.boxes == Defaults.DefaultBoxes && DeletedBoxes(r.boxes) == []
    ensures r.folders == [] && r.openFolder.None? && r.selected.None? && r.sentence == ""
  {
    Board(Defaults.DefaultBoxes, [], None, None, "")
  }

  // ---------------------------------------------------------------------
  // Lookups

  predicate HasId(s: seq<BoxInfo>, id: int) {
    exists i | 0 <= i < |s| :: s[i].id == id
  }

  /** No two tiles of `s` share an id. */
  predicate UniqueIds(s: seq<BoxInfo>) {
    forall i, j | 0 <= i < j < |s| :: s[i].id != s[j].id
  }

  /** `findIndex(box => box.id === id)`: the first position holding `id`. */
  function FindIndex(s: seq<BoxInfo>, id: int): (r: Option<nat>)
    ensures r.None? <==> !HasId(s, id)
    ensures r.Some? ==> r.value < |s| && s[r.value].id == id
    ensures r.Some? ==> forall j | 0 <= j < r.value :: s[j].id != id
  {
    if |s| == 0 then None
    else if s[0].id == id then Some(0)
    else
      match FindIndex(s[1..], id)
      case None =>
        assert forall i | 1 <= i < |s| :: s[i] == s[1..][i - 1];
        None
      case Some(k) => Some(k + 1)
  }

  /** `find(box => box.id === id)`; a `null` id matches nothing. */
  function FindBox(s: seq<BoxInfo>, id: Option<int>): (r: Option<BoxInfo>)
    ensures r.Some? ==> id.Some? && r.value in s && r.value.id == id.value
    ensures r.None? <==> id.None? || !HasId(s, id.value)
    ensures r.Some? ==> r.value == s[FindIndex(s, id.value).value]
  {
    if id.None? then None
    else
      match FindIndex(s, id.value)
      case None => None
      case Some(i) => Some(s[i])
  }

  /** `folders.findIndex(folder => folder.uuid === uuid)`. */
  function FindFolder(fs: seq<FolderInfo>, uuid: string): (r: Option<nat>)
    ensures r.None? ==> forall j | 0 <= j < |fs| :: fs[j].uuid != uuid
    ensures r.Some? ==> r.value < |fs| && fs[r.value].uuid == uuid
    ensures r.Some? ==> forall j | 0 <= j < r.value :: fs[j].uuid != uuid
  {
    if |fs| == 0 then None
    else if fs[0].uuid == uuid then Some(0)
    else
      match FindFolder(fs[1..], uuid)
      case None =>
        assert forall i | 1 <= i < |fs| :: fs[i] == fs[1..][i - 1];
        None
      case Some(k) => Some(k + 1)
  }

  /** `currentOpenFolder` is truthy: present and not the empty string. */
  predicate IsOpen(b: Board) {
    b.openFolder.Some? && b.openFolder.value != ""
  }

  /** The position of the open folder, when one is open and exists. */
  function OpenFolderIndex(b: Board): (r: Option<nat>)
    ensures r.Some? ==> IsOpen(b) && r.value < |b.folders|
  {
    if IsOpen(b) then FindFolder(b.folders, b.openFolder.value) else None
  }

  /** The tiles on screen: the open folder's contents (none when the folder
      is missing), otherwise the top-level tiles. */
  function CurrentBoxes(b: Board): (r: seq<BoxInfo>)
    ensures !IsOpen(b) ==> r == b.boxes
    ensures IsOpen(b) && OpenFolderIndex(b).None? ==> r == []
    ensures OpenFolderIndex(b).Some? ==> r == b.folders[OpenFolderIndex(b).value].containedBoxes
  {
    if !IsOpen(b) then b.boxes
    else
      match OpenFolderIndex(b)
      case None => []
      case Some(fi) => b.folders[fi].containedBoxes
  }

  // ---------------------------------------------------------------------
  // Fresh ids

  /** `Math.max(...xs)` over a non-empty list. */
  function MaxOf(xs: seq<int>): (m: int)
    requires |xs| > 0
    ensures forall i | 0 <= i < |xs| :: xs[i] <= m
    ensures exists i | 0 <= i < |xs| :: xs[i] == m
  {
    if |xs| == 1 then xs[0]
    else
      var m := MaxOf(xs[1..]);
      assert forall i | 1 <= i < |xs| :: xs[i] == xs[1..][i - 1];
      if xs[0] >= m then xs[0] else m
  }

  function Ids(s: seq<BoxInfo>): (r: seq<int>)
    ensures |r| == |s| && forall i | 0 <= i < |s| :: r[i] == s[i].id
  {
    seq(|s|, i requires 0 <= i < |s| => s[i].id)
  }

  /** Id of a tile added inside a folder: one past the largest id there, or
      1 in an empty folder. */
  function NewFolderBoxId(contained: seq<BoxInfo>): (id: int)
    ensures |contained| == 0 ==> id == 1
    ensures forall i | 0 <= i < |contained| :: contained[i].id < id
    ensures |contained| > 0 ==> exists i | 0 <= i < |contained| :: contained[i].id + 1 == id
  {
    if |contained| > 0 then MaxOf(Ids(contained)) + 1 else 1
  }

  /** Id of a tile added at top level: one past the largest id among the
      current and the default tiles, or 1 on an empty board. */
  function NewTopLevelId(boxes: seq<BoxInfo>): (id: int)
    ensures |boxes| == 0 ==> id == 1
    ensures |boxes| > 0 ==> forall i | 0 <= i < |boxes| :: boxes[i].id < id
    ensures |boxes| > 0 ==> forall i | 0 <= i < |Defaults.DefaultBoxes| :: Defaults.DefaultBoxes[i].id < id
    ensures |boxes| > 0 ==>
      || (exists i | 0 <= i < |boxes| :: boxes[i].id + 1 == id)
      || (exists i | 0 <= i < |Defaults.DefaultBoxes| :: Defaults.DefaultBoxes[i].id + 1 == id)
  {
    if |boxes| > 0 then
      var all := Ids(boxes) + Ids(Defaults.DefaultBoxes);
      assert forall i | 0 <= i < |boxes| :: all[i] == boxes[i].id;
      assert forall i | 0 <= i < |Defaults.DefaultBoxes| :: all[|boxes| + i] == Defaults.DefaultBoxes[i].id;
      MaxOf(all) + 1
    else 1
  }

  // ---------------------------------------------------------------------
  // Adding, deleting, re-adding, resetting

  /** handleAddNewBox while a folder is open: a talk tile appended to that
      folder. */
  function AddToFolder(b: Board, fi: nat, text: string, color: string, image: string): (r: Board)
    requires fi < |b.folders|
    ensures r.boxes == b.boxes && r.openFolder == b.openFolder
    ensures r.selected == b.selected && r.sentence == b.sentence
    ensures |r.folders| == |b.folders|
    ensures forall k | 0 <= k < |b.folders| && k != fi :: r.folders[k] == b.folders[k]
    ensures var old_ := b.folders[fi]; var new_ := r.folders[fi];
      && new_.uuid == old_.uuid && new_.text == old_.text
      && |new_.containedBoxes| == |old_.containedBoxes| + 1
      && new_.containedBoxes[..|old_.containedBoxes|] == old_.containedBoxes
    ensures var old_ := b.folders[fi].containedBoxes;
      var box := r.folders[fi].containedBoxes[|old_|];
      && box.boxType == TalkBox && box.text == text && box.color == color
      && box.image == image && box.folderId.None?
      && box.id == NewFolderBoxId(old_)
      && (|old_| == 0 ==> box.id == 1)
      && (forall i | 0 <= i < |old_| :: old_[i].id < box.id)
  {
    var f := b.folders[fi];
    var box := BoxInfo(NewFolderBoxId(f.containedBoxes), TalkBox, text, image, color, None);
    b.(folders := b.folders[fi := f.(containedBoxes := f.containedBoxes + [box])])
  }

  /** handleAddNewBox at top level: a new tile at the end, and for a folder
      tile also a new empty folder under the supplied uuid. */
  function AddTopLevel(b: Board, text: string, color: string, image: string, isFolder: bool, uuid: string): (r: Board)
    ensures r.openFolder == b.openFolder && r.selected == b.selected && r.sentence == b.sentence
    ensures |r.boxes| == |b.boxes| + 1 && r.boxes[..|b.boxes|] == b.boxes
    ensures var box := r.boxes[|b.boxes|];
      && box.text == text && box.color == color && box.image == image
      && box.id == NewTopLevelId(b.boxes)
      && (|b.boxes| == 0 ==> box.id == 1)
      && (|b.boxes| > 0 ==> !HasId(b.boxes, box.id) && !HasId(Defaults.DefaultBoxes, box.id))
      && (isFolder ==> box.boxType == FolderBox && box.folderId == Some(uuid))
      && (!isFolder ==> box.boxType == TalkBox && box.folderId.None?)
    ensures isFolder ==> r.folders == b.folders + [FolderInfo(uuid, text, [])]
    ensures !isFolder ==> r.folders == b.folders
  {
    var id := NewTopLevelId(b.boxes);
    var box := BoxInfo(id, if isFolder then FolderBox else TalkBox, text, image, color,
                       if isFolder then Some(uuid) else None);
    var folders := if isFolder then b.folders + [FolderInfo(uuid, text, [])] else b.folders;
    b.(boxes := b.boxes + [box], folders := folders)
  }

  /** handleAddNewBox. `uuid` is the value the uuid generator produced for
      this call; inside a folder it and `isFolder` are ignored, and an open
      folder that no longer exists makes the call a no-op. */
  function AddNewBox(b: Board, text: string, color: string, image: string, isFolder: bool, uuid: string): (r: Board)
    ensures !IsOpen(b) ==> r == AddTopLevel(b, text, color, image, isFolder, uuid)
    ensures IsOpen(b) && OpenFolderIndex(b).None? ==> r == b
    ensures OpenFolderIndex(b).Some? ==> r == AddToFolder(b, OpenFolderIndex(b).value, text, color, image)
  {
    if !IsOpen(b) then AddTopLevel(b, text, color, image, isFolder, uuid)
    else
      match OpenFolderIndex(b)
      case None => b
      case Some(fi) => AddToFolder(b, fi, text, color, image)
  }

  /** `filter(box => box.id !== id)`: every tile with that id goes, the rest
      stay in order. */
  function RemoveId(s: seq<BoxInfo>, id: int): (r: seq<BoxInfo>)
    ensures !HasId(r, id)
    ensures forall x :: multiset(r)[x] == if x.id == id then 0 else multiset(s)[x]
    ensures !HasId(s, id) ==> r == s
  {
    Filter(s, (x: BoxInfo) => x.id != id)
  }

  /** handleDelete: removes the tiles with that id from the open folder, or
      from the top level when no folder is open. */
  function Delete(b: Board, id: int): (r: Board)
    ensures r.openFolder == b.openFolder && r.selected == b.selected && r.sentence == b.sentence
    ensures !IsOpen(b) ==> r.boxes == RemoveId(b.boxes, id) && r.folders == b.folders
    ensures IsOpen(b) ==> r.boxes == b.boxes && |r.folders| == |b.folders|
    ensures OpenFolderIndex(b).None? ==> r.folders == b.folders
    ensures OpenFolderIndex(b).Some? ==>
      var fi := OpenFolderIndex(b).value;
      && r.folders[fi] == b.folders[fi].(containedBoxes := RemoveId(b.folders[fi].containedBoxes, id))
      && forall k | 0 <= k < |b.folders| && k != fi :: r.folders[k] == b.folders[k]
  {
    if !IsOpen(b) then b.(boxes := RemoveId(b.boxes, id))
    else
      match OpenFolderIndex(b)
      case None => b
      case Some(fi) =>
        var f := b.folders[fi];
        b.(folders := b.folders[fi := f.(containedBoxes := RemoveId(f.containedBoxes, id))])
  }

  /** `deletedBoxes`: the default tiles whose id no current tile carries, in
      default order. */
  function DeletedBoxes(boxes: seq<BoxInfo>): (r: seq<BoxInfo>)
    ensures forall d :: d in r <==> d in Defaults.DefaultBoxes && !HasId(boxes, d.id)
    ensures IncreasingIds(r)
  {
    var r := Filter(Defaults.DefaultBoxes, (d: BoxInfo) => !HasId(boxes, d.id));
    assert forall d :: d in r <==> multiset(r)[d] > 0;
    assert IncreasingIds(r) by {
      Defaults.DefaultIdsConsecutive();
      FilterKeepsIncreasingIds(Defaults.DefaultBoxes, (d: BoxInfo) => !HasId(boxes, d.id));
    }
    r
  }

  /** Ids strictly increase along `s`; for the default tiles, whose ids
      are their positions plus one, this is default order. */
  predicate IncreasingIds(s: seq<BoxInfo>) {
    forall i, j | 0 <= i < j < |s| :: s[i].id < s[j].id
  }

  /** Filtering keeps ids increasing. */
  lemma {:induction false} FilterKeepsIncreasingIds(s: seq<BoxInfo>, keep: BoxInfo -> bool)
    requires IncreasingIds(s)
    ensures IncreasingIds(Filter(s, keep))
    decreases |s|
  {
    if |s| > 0 {
      var tail := s[1..];
      TailAbove(s);
      FilterKeepsIncreasingIds(tail, keep);
      var rest := Filter(tail, keep);
      if keep(s[0]) {
        FilterKeepsAbove(tail, keep, s[0].id);
        ConsKeepsIncreasingIds(s[0], rest);
      }
      assert Filter(s, keep) == if keep(s[0]) then [s[0]] + rest else rest;
    }
  }

  /** The rest of an increasing list is increasing and lies above its
      first id. */
  lemma TailAbove(s: seq<BoxInfo>)
    requires IncreasingIds(s) && |s| > 0
    ensures IncreasingIds(s[1..])
    ensures forall i | 0 <= i < |s[1..]| :: s[0].id < s[1..][i].id
  {
    var tail := s[1..];
    forall i, j | 0 <= i < j < |tail|
      ensures tail[i].id < tail[j].id
    {
      assert tail[i] == s[i + 1] && tail[j] == s[j + 1];
    }
    forall i | 0 <= i < |tail|
      ensures s[0].id < tail[i].id
    {
      assert tail[i] == s[i + 1];
    }
  }

  /** Filtering keeps every id above a bound that all ids were above. */
  lemma FilterKeepsAbove(s: seq<BoxInfo>, keep: BoxInfo -> bool, bound: int)
    requires forall i | 0 <= i < |s| :: bound < s[i].id
    ensures forall k | 0 <= k < |Filter(s, keep)| :: bound < Filter(s, keep)[k].id
  {
    var r := Filter(s, keep);
    forall k | 0 <= k < |r|
      ensures bound < r[k].id
    {
      assert multiset(r)[r[k]] > 0;
      assert r[k] in s;
    }
  }

  /** A tile with an id below all of an increasing list's ids, put in
      front, keeps it increasing. */
  lemma ConsKeepsIncreasingIds(box: BoxInfo, s: seq<BoxInfo>)
    requires IncreasingIds(s) && forall k | 0 <= k < |s| :: box.id < s[k].id
    ensures IncreasingIds([box] + s)
  {
    var r := [box] + s;
    forall i, j | 0 <= i < j < |r|
      ensures r[i].id < r[j].id
    {
      assert r[j] == s[j - 1];
      if i > 0 {
        assert r[i] == s[i - 1];
      }
    }
  }

  /** handleReAdd: the tile goes to the end of the top level. */
  function ReAdd(b: Board, box: BoxInfo): (r: Board)
    ensures |r.boxes| == |b.boxes| + 1
    ensures r.boxes[..|b.boxes|] == b.boxes && r.boxes[|b.boxes|] == box
    ensures r == b.(boxes := r.boxes)
  {
    b.(boxes := b.boxes + [box])
  }

  /** handleResetBoxes: the top level goes back to the default tiles;
      folders stay. */
  function Reset(b: Board): (r: Board)
    ensures r.boxes == Defaults.DefaultBoxes
    ensures r == b.(boxes := r.boxes)
  {
    b.(boxes := Defaults.DefaultBoxes)
  }

  // ---------------------------------------------------------------------
  // Swapping and selection

  /** swapBoxes on a list: when both ids occur, the tiles at their first
      positions change places; otherwise nothing changes. */
  function SwapIds(s: seq<BoxInfo>, source: int, target: int): (r: seq<BoxInfo>)
    ensures |r| == |s|
    ensures multiset(r) == multiset(s)
    ensures !HasId(s, source) || !HasId(s, target) ==> r == s
    ensures HasId(s, source) && HasId(s, target) ==>
      var i := FindIndex(s, source).value;
      var j := FindIndex(s, target).value;
      && r[i] == s[j] && r[j] == s[i]
      && forall k | 0 <= k < |s| && k != i && k != j :: r[k] == s[k]
  {
    match (FindIndex(s, source), FindIndex(s, target))
    case (Some(i), Some(j)) => s[i := s[j]][j := s[i]]
    case _ => s
  }

  /** The handlers' swap on the open folder's contents. */
  function SwapInFolder(b: Board, fi: nat, source: int, target: int): (r: Board)
    requires fi < |b.folders|
    ensures r.boxes == b.boxes && |r.folders| == |b.folders|
    ensures r.folders[fi].containedBoxes == SwapIds(b.folders[fi].containedBoxes, source, target)
    ensures r.folders[fi].uuid == b.folders[fi].uuid && r.folders[fi].text == b.folders[fi].text
    ensures forall k | 0 <= k < |b.folders| && k != fi :: r.folders[k] == b.folders[k]
    ensures r.openFolder == b.openFolder && r.selected == b.selected && r.sentence == b.sentence
  {
    var f := b.folders[fi];
    b.(folders := b.folders[fi := f.(containedBoxes := SwapIds(f.containedBoxes, source, target))])
  }

  /** handleLongSelect: select when nothing is selected, clear on the same
      tile, otherwise swap the two top-level tiles and clear. The swap
      always works on the top level, even while a folder is open. */
  function LongSelect(b: Board, id: int): (r: Board)
    ensures r.folders == b.folders && r.openFolder == b.openFolder && r.sentence == b.sentence
    ensures b.selected.None? ==> r.selected == Some(id) && r.boxes == b.boxes
    ensures b.selected == Some(id) ==> r.selected.None? && r.boxes == b.boxes
    ensures b.selected.Some? && b.selected.value != id ==>
      r.selected.None? && r.boxes == SwapIds(b.boxes, b.selected.value, id)
  {
    match b.selected
    case None => b.(selected := Some(id))
    case Some(sel) =>
      if sel != id then b.(boxes := SwapIds(b.boxes, sel, id), selected := None)
      else b.(selected := None)
  }

  /** handleSelect, a tap on tile `id` (`None` for `null`); `uuid` is the
      folder a folder tile opens, "" for other tiles. With a selection
      pending it swaps (in the open folder, or at top level) and clears the
      selection; otherwise it opens a folder tile or appends the tile's text
      to the sentence. */
  function Tap(b: Board, id: Option<int>, uuid: string): (r: Board)
    ensures b.selected.Some? && id.Some? ==>
      && r.selected.None? && r.sentence == b.sentence && r.openFolder == b.openFolder
      && (!IsOpen(b) ==> r.boxes == SwapIds(b.boxes, b.selected.value, id.value) && r.folders == b.folders)
      && (OpenFolderIndex(b).Some? ==> r == SwapInFolder(b, OpenFolderIndex(b).value, b.selected.value, id.value).(selected := None))
    ensures b.selected.None? && id.None? ==> r == b
    ensures b.selected != id && id.None? ==> r.selected == b.selected
    ensures b.selected.None? && id.Some? ==> r.selected.None? && r.boxes == b.boxes && r.folders == b.folders
    ensures !(b.selected.Some? && id.Some?) && b.selected != id && uuid != "" ==>
      r == b.(openFolder := Some(uuid))
    ensures !(b.selected.Some? && id.Some?) && b.selected != id && uuid == "" && !IsOpen(b) ==>
      r == b.(sentence := Sentence.AppendWord(b.sentence, match FindBox(b.boxes, id) case Some(x) => x.text case None => ""))
    ensures !(b.selected.Some? && id.Some?) && b.selected != id && uuid == "" && OpenFolderIndex(b).Some? ==>
      var found := FindBox(b.folders[OpenFolderIndex(b).value].containedBoxes, id);
      r == if found.Some? then b.(sentence := Sentence.AppendWord(b.sentence, found.value.text)) else b
    ensures IsOpen(b) && OpenFolderIndex(b).None? ==>
      r.boxes == b.boxes && r.folders == b.folders && r.sentence == b.sentence
    ensures !(b.selected.Some? && id.Some?) && b.selected != id && uuid == "" && IsOpen(b) && OpenFolderIndex(b).None? ==>
      r == b
  {
    if b.selected.Some? && id.Some? then
      var swapped :=
        if !IsOpen(b) then b.(boxes := SwapIds(b.boxes, b.selected.value, id.value))
        else
          match OpenFolderIndex(b)
          case None => b
          case Some(fi) => SwapInFolder(b, fi, b.selected.value, id.value);
      swapped.(selected := None)
    else if b.selected == id then b.(selected := None)
    else if uuid != "" then b.(openFolder := Some(uuid))
    else if !IsOpen(b) then
      var text := match FindBox(b.boxes, id) case Some(x) => x.text case None => "";
      b.(sentence := Sentence.AppendWord(b.sentence, text))
    else
      match OpenFolderIndex(b)
      case None => b
      case Some(fi) =>
        match FindBox(b.folders[fi].containedBoxes, id)
        case None => b
        case Some(box) => b.(sentence := Sentence.AppendWord(b.sentence, box.text))
  }

  // ---------------------------------------------------------------------
  // Editing and the sentence buttons

  /** handleEditSave: every top-level tile whose id is the edited tile's id
      becomes that tile with the new text, colour and image; with no tile
      being edited nothing happens. */
  function EditSave(b: Board, editing: Option<BoxInfo>, text: string, color: string, image: string): (r: Board)
    ensures editing.None? ==> r == b
    ensures r == b.(boxes := r.boxes) && |r.boxes| == |b.boxes|
    ensures editing.Some? ==> forall i | 0 <= i < |b.boxes| ::
      r.boxes[i] == if b.boxes[i].id == editing.value.id
                    then editing.value.(text := text, color := color, image := image)
                    else b.boxes[i]
  {
    match editing
    case None => b
    case Some(e) =>
      var updated := e.(text := text, color := color, image := image);
      b.(boxes := seq(|b.boxes|, i requires 0 <= i < |b.boxes| =>
                        if b.boxes[i].id == updated.id then updated else b.boxes[i]))
  }

  function DeleteWord(b: Board): Board {
    b.(sentence := Sentence.DeleteWord(b.sentence))
  }

  function DeleteLetter(b: Board): Board {
    b.(sentence := Sentence.DeleteLetter(b.sentence))
  }

  /** handleOpenFolder and handleCloseFolder. */
  function OpenFolder(b: Board, uuid: string): Board {
    b.(openFolder := Some(uuid))
  }

  function CloseFolder(b: Board): Board {
    b.(openFolder := None)
  }
}

=== FILE: board_lemmas.dfy ===
/** Properties of the home-screen board transitions that relate several
    operations or hold across every one of them. */
module BoardLemmas {
  import opened Wrappers
  import opened Types
  import opened Seqs
  import Defaults
  import opened Board

  // ---------------------------------------------------------------------
  // Swapping

  lemma FirstIndexUnique(s: seq<BoxInfo>, k: nat)
    requires UniqueIds(s) && k < |s|
    ensures FindIndex(s, s[k].id) == Some(k)
  {
  }

  /** With distinct ids, swapping the same pair twice restores the list. */
  lemma SwapTwiceRestores(s: seq<BoxInfo>, source: int, target: int)
    requires UniqueIds(s)
    ensures SwapIds(SwapIds(s, source, target), source, target) == s
  {
    var once := SwapIds(s, source, target);
    if HasId(s, source) && HasId(s, target) {
      var i := FindIndex(s, source).value;
      var j := FindIndex(s, target).value;
      SwapKeepsUniqueIds(s, source, target);
      assert once[j].id == source;
      FirstIndexUnique(once, j);
      assert once[i].id == target;
      FirstIndexUnique(once, i);
    }
  }

  /** Swapping keeps ids distinct. */
  lemma SwapKeepsUniqueIds(s: seq<BoxInfo>, source: int, target: int)
    requires UniqueIds(s)
    ensures UniqueIds(SwapIds(s, source, target))
  {
    var r := SwapIds(s, source, target);
    if HasId(s, source) && HasId(s, target) {
      var i := FindIndex(s, source).value;
      var j := FindIndex(s, target).value;
      // Position k of r holds the tile from position Src(k) of s.
      var src := (k: int) => if k == i then j else if k == j then i else k;
      assert forall k | 0 <= k < |s| :: r[k] == s[src(k)];
      forall a, b | 0 <= a < b < |r|
        ensures r[a].id != r[b].id
      {
        assert src(a) != src(b);
        assert r[a] == s[src(a)] && r[b] == s[src(b)];
      }
    }
  }

  // ---------------------------------------------------------------------
  // Removing and the re-add list

  /** Filtering keeps ids distinct. */
  lemma {:induction false} FilterKeepsUniqueIds(s: seq<BoxInfo>, keep: BoxInfo -> bool)
    requires UniqueIds(s)
    ensures UniqueIds(Filter(s, keep))
    decreases |s|
  {
    if |s| > 0 {
      var tail := s[1..];
      assert UniqueIds(tail) by {
        forall i, j | 0 <= i < j < |tail|
          ensures tail[i].id != tail[j].id
        {
          assert tail[i] == s[i + 1] && tail[j] == s[j + 1];
        }
      }
      var rest := Filter(tail, keep);
      assert UniqueIds(rest) by {
        FilterKeepsUniqueIds(tail, keep);
      }
      assert Filter(s, keep) == if keep(s[0]) then [s[0]] + rest else rest;
      if keep(s[0]) {
        forall k | 0 <= k < |rest|
          ensures rest[k].id != s[0].id
        {
          assert rest[k] in tail by {
            assert multiset(rest)[rest[k]] > 0;
          }
        }
        ConsKeepsUniqueIds(s[0], rest);
      }
    }
  }

  /** A tile put in front of tiles with distinct ids, none its own, keeps
      them distinct. */
  lemma ConsKeepsUniqueIds(box: BoxInfo, s: seq<BoxInfo>)
    requires UniqueIds(s) && forall k | 0 <= k < |s| :: s[k].id != box.id
    ensures UniqueIds([box] + s)
  {
    var r := [box] + s;
    forall i, j | 0 <= i < j < |r|
      ensures r[i].id != r[j].id
    {
      assert r[j] == s[j - 1];
      if i > 0 {
        assert r[i] == s[i - 1];
      }
    }
  }

  lemma RemoveIdKeepsUniqueIds(s: seq<BoxInfo>, id: int)
    requires UniqueIds(s)
    ensures UniqueIds(RemoveId(s, id))
  {
    FilterKeepsUniqueIds(s, (x: BoxInfo) => x.id != id);
  }

  lemma DefaultBoxesUnique()
    ensures UniqueIds(Defaults.DefaultBoxes)
  {
    Defaults.DefaultIdsConsecutive();
  }

  /** After a reset nothing is left to re-add. */
  lemma ResetLeavesNothingDeleted(b: Board)
    ensures DeletedBoxes(Reset(b).boxes) == []
  {
  }

  /** Deleting a default tile at top level puts it on the re-add list. */
  lemma DeleteOffersReAdd(b: Board, d: BoxInfo)
    requires !IsOpen(b) && d in Defaults.DefaultBoxes
    ensures d in DeletedBoxes(Delete(b, d.id).boxes)
  {
  }

  /** Re-adding a tile takes it off the re-add list, and no tile with
      another id. */
  lemma ReAddTakesItOffTheList(b: Board, d: BoxInfo, e: BoxInfo)
    ensures d !in DeletedBoxes(ReAdd(b, d).boxes)
    ensures e.id != d.id ==> (e in DeletedBoxes(ReAdd(b, d).boxes) <==> e in DeletedBoxes(b.boxes))
  {
    assert ReAdd(b, d).boxes == b.boxes + [d];
    HasIdAppend(b.boxes, d, d.id);
    HasIdAppend(b.boxes, d, e.id);
  }

  /** A tile appended to `s` adds its id and no other. */
  lemma HasIdAppend(s: seq<BoxInfo>, box: BoxInfo, id: int)
    ensures HasId(s + [box], id) <==> HasId(s, id) || box.id == id
  {
    var after := s + [box];
    assert after[|s|] == box;
    if HasId(after, id) && box.id != id {
      var k :| 0 <= k < |after| && after[k].id == id;
      assert k < |s| && s[k] == after[k];
    }
    if HasId(s, id) {
      var k :| 0 <= k < |s| && s[k].id == id;
      assert after[k] == s[k];
    }
  }

  /** Adding at top level to a non-empty board leaves the re-add list as it
      was: the new id is above every default id. */
  lemma AddKeepsDeletedBoxes(b: Board, text: string, color: string, image: string, isFolder: bool, uuid: string)
    requires !IsOpen(b) && |b.boxes| > 0
    ensures DeletedBoxes(AddNewBox(b, text, color, image, isFolder, uuid).boxes) == DeletedBoxes(b.boxes)
  {
    var after := AddNewBox(b, text, color, image, isFolder, uuid).boxes;
    var newId := after[|b.boxes|].id;
    forall i | 0 <= i < |Defaults.DefaultBoxes|
      ensures HasId(after, Defaults.DefaultBoxes[i].id) == HasId(b.boxes, Defaults.DefaultBoxes[i].id)
    {
      var id := Defaults.DefaultBoxes[i].id;
      assert id != newId;
      if HasId(after, id) {
        var k :| 0 <= k < |after| && after[k].id == id;
        assert k < |b.boxes| && b.boxes[k] == after[k];
      }
      if HasId(b.boxes, id) {
        var k :| 0 <= k < |b.boxes| && b.boxes[k].id == id;
        assert after[k] == b.boxes[k];
      }
    }
    FilterAgree(Defaults.DefaultBoxes,
      (d: BoxInfo) => !HasId(after, d.id), (d: BoxInfo) => !HasId(b.boxes, d.id));
  }

  /** On an empty board the first added tile gets id 1, the id of the
      default tile "Hi", which therefore drops off the re-add list although
      it is not on the board. */
  lemma EmptyBoardAddHidesDefault(b: Board, text: string, color: string, image: string)
    requires !IsOpen(b) && b.boxes == [] && text != Defaults.DefaultBoxes[0].text
    ensures var after := AddNewBox(b, text, color, image, false, "").boxes;
      && Defaults.DefaultBoxes[0] !in after
      && Defaults.DefaultBoxes[0] !in DeletedBoxes(after)
  {
    var after := AddNewBox(b, text, color, image, false, "").boxes;
    Defaults.DefaultIdsConsecutive();
    assert after[0].id == 1 && HasId(after, 1);
    assert after[0].image == image && after[0].folderId.None?;
  }

  // ---------------------------------------------------------------------
  // Distinct ids as an invariant of every handler

  /** Ids are distinct at top level and within each folder. */
  predicate WellFormed(b: Board) {
    && UniqueIds(b.boxes)
    && forall k | 0 <= k < |b.folders| :: UniqueIds(b.folders[k].containedBoxes)
  }

  /** The board events the screen's handlers react to. */
  datatype Event =
    | AddBox(text: string, color: string, image: string, isFolder: bool, uuid: string)
    | DeleteBox(id: int)
    | ReAddBox(box: BoxInfo)
    | ResetBoxes
    | LongPress(id: int)
    | Press(pressed: Option<int>, folderUuid: string)
    | SaveEdit(editing: Option<BoxInfo>, text: string, color: string, image: string)
    | DeleteWordPressed
    | DeleteLetterPressed
    | CloseFolderPressed

  function Step(b: Board, e: Event): Board {
    match e
    case AddBox(text, color, image, isFolder, uuid) => AddNewBox(b, text, color, image, isFolder, uuid)
    case DeleteBox(id) => Delete(b, id)
    case ReAddBox(box) => ReAdd(b, box)
    case ResetBoxes => Reset(b)
    case LongPress(id) => LongSelect(b, id)
    case Press(pressed, folderUuid) => Tap(b, pressed, folderUuid)
    case SaveEdit(editing, text, color, image) => EditSave(b, editing, text, color, image)
    case DeleteWordPressed => DeleteWord(b)
    case DeleteLetterPressed => DeleteLetter(b)
    case CloseFolderPressed => CloseFolder(b)
  }

  /** The screen offers only tiles from the re-add list for re-adding. */
  predicate Offered(b: Board, e: Event) {
    e.ReAddBox? ==> e.box in DeletedBoxes(b.boxes)
  }

  lemma AppendFreshKeepsUniqueIds(s: seq<BoxInfo>, box: BoxInfo)
    requires UniqueIds(s) && !HasId(s, box.id)
    ensures UniqueIds(s + [box])
  {
    var r := s + [box];
    forall i, j | 0 <= i < j < |r|
      ensures r[i].id != r[j].id
    {
      if j == |s| {
        assert r[i] == s[i];
      }
    }
  }

  lemma AddKeepsWellFormed(b: Board, text: string, color: string, image: string, isFolder: bool, uuid: string)
    requires WellFormed(b)
    ensures WellFormed(AddNewBox(b, text, color, image, isFolder, uuid))
  {
    var r := AddNewBox(b, text, color, image, isFolder, uuid);
    if !IsOpen(b) {
      AppendFreshKeepsUniqueIds(b.boxes, r.boxes[|b.boxes|]);
      assert r.boxes == b.boxes + [r.boxes[|b.boxes|]];
    } else if OpenFolderIndex(b).Some? {
      var fi := OpenFolderIndex(b).value;
      var old_ := b.folders[fi].containedBoxes;
      var new_ := r.folders[fi].containedBoxes;
      AppendFreshKeepsUniqueIds(old_, new_[|old_|]);
      assert new_ == old_ + [new_[|old_|]];
    }
  }

  lemma DeleteKeepsWellFormed(b: Board, id: int)
    requires WellFormed(b)
    ensures WellFormed(Delete(b, id))
  {
    if !IsOpen(b) {
      RemoveIdKeepsUniqueIds(b.boxes, id);
    } else if OpenFolderIndex(b).Some? {
      RemoveIdKeepsUniqueIds(b.folders[OpenFolderIndex(b).value].containedBoxes, id);
    }
  }

  lemma TapKeepsWellFormed(b: Board, pressed: Option<int>, folderUuid: string)
    requires WellFormed(b)
    ensures WellFormed(Tap(b, pressed, folderUuid))
  {
    if b.selected.Some? && pressed.Some? {
      if !IsOpen(b) {
        SwapKeepsUniqueIds(b.boxes, b.selected.value, pressed.value);
      } else if OpenFolderIndex(b).Some? {
        SwapKeepsUniqueIds(b.folders[OpenFolderIndex(b).value].containedBoxes, b.selected.value, pressed.value);
      }
    }
  }

  lemma EditSaveKeepsWellFormed(b: Board, editing: Option<BoxInfo>, text: string, color: string, image: string)
    requires WellFormed(b)
    ensures WellFormed(EditSave(b, editing, text, color, image))
  {
    var r := EditSave(b, editing, text, color, image);
    assert forall i | 0 <= i < |b.boxes| :: r.boxes[i].id == b.boxes[i].id;
  }

  /** Every handler keeps ids distinct at top level and within each folder,
      provided re-adding is offered only for tiles on the re-add list. This
      holds on the empty board too: the id-1 tile hides default tile 1 from
      the list. */
  lemma StepKeepsWellFormed(b: Board, e: Event)
    requires WellFormed(b) && Offered(b, e)
    ensures WellFormed(Step(b, e))
  {
    match e
    case AddBox(text, color, image, isFolder, uuid) => AddKeepsWellFormed(b, text, color, image, isFolder, uuid);
    case DeleteBox(id) => DeleteKeepsWellFormed(b, id);
    case ReAddBox(box) => AppendFreshKeepsUniqueIds(b.boxes, box);
    case ResetBoxes => DefaultBoxesUnique();
    case LongPress(id) =>
      if b.selected.Some? && b.selected.value != id {
        SwapKeepsUniqueIds(b.boxes, b.selected.value, id);
      }
    case Press(pressed, folderUuid) => TapKeepsWellFormed(b, pressed, folderUuid);
    case SaveEdit(editing, text, color, image) => EditSaveKeepsWellFormed(b, editing, text, color, image);
    case DeleteWordPressed =>
    case DeleteLetterPressed =>
    case CloseFolderPressed =>
  }

  /** The first screen is well formed. */
  lemma InitialWellFormed()
    ensures WellFormed(Initial())
  {
    DefaultBoxesUnique();
  }

  // ---------------------------------------------------------------------
  // Selection

  /** Long-pressing the same tile twice selects and then clears, leaving the
      board as it was. */
  lemma LongPressTwiceClears(b: Board, id: int)
    requires b.selected.None?
    ensures LongSelect(LongSelect(b, id), id) == b
  {
  }

  /** A swap by long-press followed by the same swap restores the top level
      when its ids are distinct. */
  lemma LongPressSwapUndone(b: Board, first: int, second: int)
    requires b.selected.None? && first != second && UniqueIds(b.boxes)
    ensures var once := LongSelect(LongSelect(b, first), second);
      LongSelect(LongSelect(once, first), second).boxes == b.boxes
  {
    SwapTwiceRestores(b.boxes, first, second);
  }
}

=== FILE: connection.dfy ===
/** The socket context of app/provider/WebSocketProvider.tsx: connection
    status, the append-only log of server responses, and the guard on
    sending. The socket library itself (transport, reconnection back-off) is
    not modelled; its callbacks are the events below. */
module Connection {
  import opened Wrappers

  datatype Status = Connecting | Connected | Disconnecting | Disconnected | Error

  /** The inner `data` object of a server response, with the fields the
      screens read. */
  datatype ResultData = ResultData(
    imageUrls: Option<seq<string>>,
    error: Option<string>,
    audioUrl: Option<string>,
    options: Option<seq<string>>)

  /** A server response body. */
  datatype Payload = Payload(
    requestType: Option<string>,
    requestId: Option<string>,
    error: Option<string>,
    data: ResultData)

  /** A log entry: the event name it arrived on and the body. */
  datatype Message = Message(event: string, data: Payload)

  /** `urls[0] || ""`. */
  function FirstOrEmpty(urls: seq<string>): string {
    if |urls| > 0 then urls[0] else ""
  }

  datatype Conn = Conn(hasSocket: bool, isConnected: bool, status: Status, messages: seq<Message>)

  /** The state before the mount effect has run. */
  function Initial(): Conn {
    Conn(false, false, Connecting, [])
  }

  /** The mount effect: status back to connecting and a socket created. */
  function Mount(c: Conn): (r: Conn)
    ensures r.hasSocket && r.status == Connecting
    ensures r.isConnected == c.isConnected && r.messages == c.messages
  {
    c.(hasSocket := true, status := Connecting)
  }

  /** The response events a listener is registered for. */
  const ResponseEvents: seq<string> := [
    "PREDICT_response",
    "SYNTHESISE_response",
    "AUTOCOMPLETE_response",
    "AUDIO_DATA_response",
    "EVENT_response",
    "GENERATE_IMAGE_response",
    "UPLOAD_AUDIO_response"
  ]

  /** The socket callbacks. */
  datatype SocketEvent =
    | ConnectEvent
    | DisconnectEvent(reason: string)
    | ConnectErrorEvent
    | Incoming(event: string, body: Payload)

  /** One callback. A connect error changes only the status, so a live
      connection can show status Error while still connected; a response on
      an event without a listener is dropped. */
  function Handle(c: Conn, e: SocketEvent): (r: Conn)
    ensures r.hasSocket == c.hasSocket
    ensures e.ConnectEvent? ==> r.isConnected && r.status == Connected && r.messages == c.messages
    ensures e.DisconnectEvent? ==> !r.isConnected && r.status == Disconnected && r.messages == c.messages
    ensures e.ConnectErrorEvent? ==> r == c.(status := Error)
    ensures e.Incoming? && e.event in ResponseEvents ==>
      r == c.(messages := c.messages + [Message(e.event, e.body)])
    ensures e.Incoming? && e.event !in ResponseEvents ==> r == c
  {
    match e
    case ConnectEvent => c.(isConnected := true, status := Connected)
    case DisconnectEvent(_) => c.(isConnected := false, status := Disconnected)
    case ConnectErrorEvent => c.(status := Error)
    case Incoming(event, body) =>
      if event in ResponseEvents then c.(messages := c.messages + [Message(event, body)]) else c
  }

  /** The callbacks in order, earliest first. */
  function Run(c: Conn, es: seq<SocketEvent>): Conn
    decreases |es|
  {
    if |es| == 0 then c else Handle(Run(c, es[..|es| - 1]), es[|es| - 1])
  }

  // ---------------------------------------------------------------------
  // Sending

  /** What the screens send. */
  datatype Request =
    | GenerateImage(text: string, requestId: Option<string>)
    | Predict(text: string)
    | Synthesise(audioFile: string, text: string)

  function EventName(req: Request): string {
    match req
    case GenerateImage(_, _) => "GENERATE_IMAGE"
    case Predict(_) => "PREDICT"
    case Synthesise(_, _) => "SYNTHESISE"
  }

  /** An emitted socket event. */
  datatype Emitted = Emitted(event: string, request: Request)

  /** `sendMessage`: emitted on the event named after the request when a
      socket exists and is connected; otherwise dropped with a warning. */
  function Send(c: Conn, req: Request): (r: Option<Emitted>)
    ensures r.Some? <==> c.hasSocket && c.isConnected
    ensures r.Some? ==> r.value == Emitted(EventName(req), req)
  {
    if c.hasSocket && c.isConnected then Some(Emitted(EventName(req), req)) else None
  }

  // ---------------------------------------------------------------------
  // Properties of whole runs

  /** The listed responses among `es`, in arrival order. */
  function Delivered(es: seq<SocketEvent>): (r: seq<Message>)
    ensures |r| <= |es|
  {
    if |es| == 0 then []
    else if es[0].Incoming? && es[0].event in ResponseEvents then
      [Message(es[0].event, es[0].body)] + Delivered(es[1..])
    else Delivered(es[1..])
  }

  lemma {:induction false} DeliveredConcat(a: seq<SocketEvent>, b: seq<SocketEvent>)
    ensures Delivered(a + b) == Delivered(a) + Delivered(b)
    decreases |a|
  {
    if |a| > 0 {
      assert (a + b)[1..] == a[1..] + b;
      DeliveredConcat(a[1..], b);
    } else {
      assert a + b == b;
    }
  }

  /** The log only grows: a run appends exactly the listed responses, in
      arrival order, to what was there. */
  lemma {:induction false} RunAppendsResponses(c: Conn, es: seq<SocketEvent>)
    ensures Run(c, es).messages == c.messages + Delivered(es)
    decreases |es|
  {
    if |es| > 0 {
      var init := es[..|es| - 1];
      RunAppendsResponses(c, init);
      assert es == init + [es[|es| - 1]];
      DeliveredConcat(init, [es[|es| - 1]]);
    }
  }

  /** Connected exactly when some connect callback came after the last
      disconnect callback. */
  predicate ConnectedAfter(es: seq<SocketEvent>) {
    exists i | 0 <= i < |es| :: es[i].ConnectEvent? && NoDisconnectAfter(es, i)
  }

  predicate NoDisconnectAfter(es: seq<SocketEvent>, i: nat) {
    forall j | i < j < |es| :: !es[j].DisconnectEvent?
  }

  /** From the mounted start, `isConnected` holds after a run exactly when
      a connect callback is not followed by any disconnect callback. */
  lemma {:induction false} ConnectedIffLastLink(es: seq<SocketEvent>)
    ensures Run(Mount(Initial()), es).isConnected <==> ConnectedAfter(es)
    decreases |es|
  {
    if |es| > 0 {
      var n := |es| - 1;
      var init := es[..n];
      ConnectedIffLastLink(init);
      if es[n].ConnectEvent? {
        assert NoDisconnectAfter(es, n);
      } else if es[n].DisconnectEvent? {
        forall i | 0 <= i < |es| && es[i].ConnectEvent?
          ensures !NoDisconnectAfter(es, i)
        {
          assert i < n;
        }
      } else {
        if ConnectedAfter(init) {
          var i :| 0 <= i < |init| && init[i].ConnectEvent? && NoDisconnectAfter(init, i);
          assert es[i].ConnectEvent? && NoDisconnectAfter(es, i);
        }
        if ConnectedAfter(es) {
          var i :| 0 <= i < |es| && es[i].ConnectEvent? && NoDisconnectAfter(es, i);
          assert init[i].ConnectEvent? && NoDisconnectAfter(init, i);
        }
      }
    }
  }

  /** The status agrees with the connection flag: status Connected implies
      connected, connected implies status Connected or Error, and status
      Disconnecting is never set. */
  predicate StatusConsistent(c: Conn) {
    && (c.status == Connected ==> c.isConnected)
    && (c.isConnected ==> c.status == Connected || c.status == Error)
    && c.status != Disconnecting
  }

  lemma {:induction false} RunKeepsStatusConsistent(c: Conn, es: seq<SocketEvent>)
    requires StatusConsistent(c)
    ensures StatusConsistent(Run(c, es))
    decreases |es|
  {
    if |es| > 0 {
      RunKeepsStatusConsistent(c, es[..|es| - 1]);
    }
  }

  lemma MountedStartConsistent()
    ensures StatusConsistent(Mount(Initial()))
    ensures Run(Mount(Initial()), []).messages == []
  {
  }

  /** Nothing can be sent before the first connect callback. */
  lemma NoSendBeforeConnect(es: seq<SocketEvent>, req: Request)
    requires forall i | 0 <= i < |es| :: !es[i].ConnectEvent?
    ensures Send(Run(Mount(Initial()), es), req).None?
  {
    ConnectedIffLastLink(es);
  }
}

=== FILE: create_box.dfy ===
/** The create dialog of app/components/CreateBoxModal.tsx. Unlike the edit
    dialog it sends no request id and reads only the newest log entry. */
module CreateBox {
  import opened Wrappers
  import opened Types
  import opened Text
  import opened Connection
  import Sentence
  import Board

  datatype CreateState = CreateState(
    text: string,
    color: string,
    images: seq<string>,
    selectedImage: string,
    isFolder: bool,
    isGenerating: bool)

  /** What "Add" hands to the home screen. */
  datatype Added = Added(text: string, color: string, image: string, isFolder: bool)

  /** The dialog when first shown. */
  function Initial(): (r: CreateState)
    ensures r.text == "" && r.color == Types.Red && r.images == [] && r.selectedImage == ""
    ensures !r.isFolder && !r.isGenerating
  {
    CreateState("", Types.Red, [], "", false, false)
  }

  /** The message effect as written: while generating, the newest entry is
      taken when it is a picture response with a picture list (pictures
      shown, first one selected) or with a non-empty top-level error; it is
      not checked to be newer than the request. */
  function OnMessages(s: CreateState, log: seq<Message>): (r: CreateState)
    ensures r.text == s.text && r.color == s.color && r.isFolder == s.isFolder
    ensures !s.isGenerating || |log| == 0 ==> r == s
    ensures s.isGenerating && |log| > 0 ==>
      var last := log[|log| - 1];
      && (last.event != "GENERATE_IMAGE_response" ==> r == s)
      && (last.event == "GENERATE_IMAGE_response" && last.data.data.imageUrls.Some? ==>
            !r.isGenerating && r.images == last.data.data.imageUrls.value
            && r.selectedImage == FirstOrEmpty(r.images))
      && (last.event == "GENERATE_IMAGE_response" && last.data.data.imageUrls.None? ==>
            r == s.(isGenerating := !Truthy(last.data.error)))
  {
    if s.isGenerating && |log| > 0 then
      var last := log[|log| - 1];
      if last.event == "GENERATE_IMAGE_response" && last.data.data.imageUrls.Some? then
        var urls := last.data.data.imageUrls.value;
        s.(selectedImage := FirstOrEmpty(urls), images := urls, isGenerating := false)
      else if last.event == "GENERATE_IMAGE_response" && Truthy(last.data.error) then
        s.(isGenerating := false)
      else s
    else s
  }

  /** "Generate": refused when the text trims to nothing; otherwise the
      trimmed text goes out without an id and the dialog waits. */
  function Generate(s: CreateState): (r: (CreateState, Option<Request>))
    ensures Blank(s.text) <==> r.1.None?
    ensures Blank(s.text) ==> r.0 == s
    ensures !Blank(s.text) ==> r.0 == s.(isGenerating := true) && r.1 == Some(GenerateImage(Trim(s.text), None))
  {
    if Trim(s.text) == "" then (s, None)
    else (s.(isGenerating := true), Some(GenerateImage(Trim(s.text), None)))
  }

  /** "Add": refused without a picture; otherwise hands over the label,
      colour, picture and folder flag and clears the form. The generating
      flag is left as it is. */
  function Add(s: CreateState): (r: (CreateState, Option<Added>))
    ensures s.selectedImage == "" <==> r.1.None?
    ensures s.selectedImage == "" ==> r.0 == s
    ensures s.selectedImage != "" ==>
      && r.1 == Some(Added(Sentence.BoxLabel(s.text), s.color, s.selectedImage, s.isFolder))
      && r.0 == Initial().(isGenerating := s.isGenerating)
  {
    if s.selectedImage == "" then (s, None)
    else (CreateState("", Types.Red, [], "", false, s.isGenerating),
          Some(Added(Sentence.BoxLabel(s.text), s.color, s.selectedImage, s.isFolder)))
  }

  /** A freshly shown dialog cannot generate: its text is empty. */
  lemma InitialRefusesGenerate()
    ensures Generate(Initial()) == (Initial(), None)
  {
  }

  /** A freshly shown dialog cannot add: no picture is chosen yet. */
  lemma InitialRefusesAdd()
    ensures Add(Initial()) == (Initial(), None)
  {
  }

  /** A tile added through the dialog at top level lands at the end of the
      board with the dialog's label, colour and picture and a fresh id. */
  lemma AddLandsOnBoard(s: CreateState, b: Board.Board, uuid: string)
    requires s.selectedImage != "" && !Board.IsOpen(b) && |b.boxes| > 0
    ensures var a := Add(s).1.value;
      var after := Board.AddNewBox(b, a.text, a.color, a.image, a.isFolder, uuid).boxes;
      && |after| == |b.boxes| + 1
      && after[|b.boxes|].text == Sentence.BoxLabel(s.text) && after[|b.boxes|].text != ""
      && after[|b.boxes|].color == s.color && after[|b.boxes|].image == s.selectedImage
      && !Board.HasId(b.boxes, after[|b.boxes|].id)
  {
  }

  /** The dialog forgets its form after each add: two adds from the same
      state hand over the default colour and no folder flag the second time
      round, if a picture is chosen again. */
  lemma AddClearsForm(s: CreateState, image: string)
    requires s.selectedImage != "" && image != ""
    ensures var again := Add(Add(s).0.(selectedImage := image)).1;
      again == Some(Added("New Box", Types.Red, image, false))
  {
  }

  // ---------------------------------------------------------------------
  // The newest entry is taken even when it predates the request

  /** A second "Generate" right after a first one was answered resolves at
      once with the first answer's pictures, because that answer is still
      the newest entry; the second answer, arriving later, is then ignored
      since the dialog no longer waits. */
  lemma StaleAnswerAccepted()
    ensures var answer := Message("GENERATE_IMAGE_response",
      Payload(None, None, None, ResultData(Some(["cat.png"]), None, None, None)));
      var log := [answer];
      var second := Generate(CreateState("dog", Types.Red, ["cat.png"], "cat.png", false, false)).0;
      var r := OnMessages(second, log);
      && !r.isGenerating && r.images == ["cat.png"]
      && OnMessages(r, log + [Message("GENERATE_IMAGE_response",
           Payload(None, None, None, ResultData(Some(["dog.png"]), None, None, None)))]) == r
  {
  }

  /** The corrected effect: the newest entry counts only when it arrived
      after the request, that is when the log is longer than it was when
      "Generate" was pressed. */
  function OnMessagesSince(s: CreateState, log: seq<Message>, sentAt: nat): (r: CreateState)
    ensures |log| <= sentAt ==> r == s
    ensures |log| > sentAt ==> r == OnMessages(s, log)
  {
    if |log| > sentAt then OnMessages(s, log) else s
  }

  /** The finding in general: while generating, a picture response as
      newest entry ends the wait with its pictures even when every entry,
      that one included, was in the log before "Generate" was pressed;
      the corrected effect leaves such a dialog waiting. */
  lemma StaleAnswerAlwaysAccepted(s: CreateState, log: seq<Message>, sentAt: nat)
    requires s.isGenerating && |log| > 0 && |log| <= sentAt
    requires log[|log| - 1].event == "GENERATE_IMAGE_response"
    requires log[|log| - 1].data.data.imageUrls.Some?
    ensures var r := OnMessages(s, log);
      !r.isGenerating && r.images == log[|log| - 1].data.data.imageUrls.value
    ensures OnMessagesSince(s, log, sentAt) == s && OnMessagesSince(s, log, sentAt).isGenerating
  {
  }

  /** Running the effect again on the same log changes nothing: whatever
      it takes ends the wait, and a state it leaves alone stays alone. */
  lemma OnMessagesIdempotent(s: CreateState, log: seq<Message>)
    ensures OnMessages(OnMessages(s, log), log) == OnMessages(s, log)
  {
  }

  /** With the correction, the answer already in the log does not end the
      second wait, and the answer that arrives afterwards does. */
  lemma FreshAnswerAccepted(s: CreateState, log: seq<Message>, body: Payload)
    requires !Blank(s.text) && body.data.imageUrls.Some?
    ensures var waiting := Generate(s).0;
      && OnMessagesSince(waiting, log, |log|) == waiting
      && var r := OnMessagesSince(waiting, log + [Message("GENERATE_IMAGE_response", body)], |log|);
         !r.isGenerating && r.images == body.data.imageUrls.value
  {
  }
}

=== FILE: defaults.dfy ===
/** The built-in board (app/data/defaultBoxes.tsx) and the default settings
    (app/data/defaultSettings.tsx). */
module Defaults {
  import opened Wrappers
  import opened Types

  /** Text and colour of each default tile, in board order; the tile at
      position i carries id i + 1. */
  const DefaultEntries: seq<(string, string)> := [
      ("Hi", Red),  // 1
      ("Help", Red),  // 2
      ("Want", Red),  // 3
      ("Need", Red),  // 4
      ("Eat", Red),  // 5
      ("Drink", Red),  // 6
      ("Stop", Red),  // 7
      ("Go", Red),  // 8
      ("Play", Red),  // 9
      ("Run", Red),  // 10
      ("Walk", Red),  // 11
      ("Jump", Red),  // 12
      ("Sleep", Red),  // 13
      ("Look", Red),  // 14
      ("More", Blue),  // 15
      ("All Done", Blue),  // 16
      ("Outside", Blue),  // 17
      ("Inside", Blue),  // 18
      ("Up", Blue),  // 19
      ("Down", Blue),  // 20
      ("Left", Blue),  // 21
      ("Right", Blue),  // 22
      ("Toy", Green),  // 23
      ("Ball", Green),  // 24
      ("Book", Green),  // 25
      ("Music", Green),  // 26
      ("Story", Green),  // 27
      ("Dog", Green),  // 28
      ("Cat", Green),  // 29
      ("I", Yellow),  // 30
      ("You", Yellow),  // 31
      ("We", Yellow),  // 32
      ("They", Yellow),  // 33
      ("He", Yellow),  // 34
      ("She", Yellow),  // 35
      ("Happy", Purple),  // 36
      ("Sad", Purple),  // 37
      ("Excited", Purple),  // 38
      ("Tired", Purple),  // 39
      ("Love", Purple),  // 40
      ("Home", Orange),  // 41
      ("School", Orange),  // 42
      ("Work", Orange),  // 43
      ("Bathroom", Orange),  // 44
      ("Friend", Pink),  // 45
      ("Mom", Pink),  // 46
      ("Dad", Pink),  // 47
      ("Brother", Pink),  // 48
      ("Sister", Pink),  // 49
      ("Game", Gray)  // 50
    ]

  /** The fifty default tiles: talk boxes without an image, numbered 1 to 50. */
  const DefaultBoxes: seq<BoxInfo> := Numbered(DefaultEntries, 1)

  function Numbered(entries: seq<(string, string)>, first: int): (r: seq<BoxInfo>)
    ensures |r| == |entries|
    ensures forall i | 0 <= i < |r| :: r[i] == BoxInfo(first + i, TalkBox, entries[i].0, "", entries[i].1, None)
  {
    if |entries| == 0 then []
    else [BoxInfo(first, TalkBox, entries[0].0, "", entries[0].1, None)] + Numbered(entries[1..], first + 1)
  }

  /** The largest id among the default tiles. */
  const MaxDefaultId: int := 50

  const DefaultSettings: AppSettings := AppSettings(8, 10, 1000, false, false)

  /** The default tiles are numbered consecutively from 1 up to MaxDefaultId. */
  lemma DefaultIdsConsecutive()
    ensures |DefaultBoxes| == MaxDefaultId
    ensures forall i | 0 <= i < |DefaultBoxes| :: DefaultBoxes[i].id == i + 1
  {
  }
}

=== FILE: edit_box.dfy ===
/** The edit dialog of app/components/EditBoxModal.tsx: it asks the server
    for pictures under a fresh request id, scans the response log from a
    cursor for the answer to that id, and saves the edited tile. */
module EditBox {
  import opened Wrappers
  import opened Types
  import opened Text
  import opened Connection
  import Sentence

  datatype EditState = EditState(
    text: string,
    color: string,
    images: seq<string>,
    selectedImage: string,
    isGenerating: bool,
    currentRequestId: Option<string>,
    cursor: nat)

  /** What a save hands back to the home screen. */
  datatype Saved = Saved(text: string, color: string, image: string)

  /** The dialog as it opens on a tile: the tile's text, colour and
      picture, no picture list, no request in flight and the cursor at the
      start of the log. */
  function Open(box: BoxInfo): (r: EditState)
    ensures r.text == box.text && r.color == box.color && r.selectedImage == box.image
    ensures r.images == [] && !r.isGenerating && r.currentRequestId.None? && r.cursor == 0
  {
    EditState(box.text, box.color, [], box.image, false, None, 0)
  }

  predicate IsImageResponse(m: Message) {
    m.event == "GENERATE_IMAGE_response"
  }

  /** The strict inequality between the response's id and the current id:
      an absent id (undefined) differs from no current id (null), so only a
      present id equal to the current one passes. */
  predicate IdDiffers(id: Option<string>, current: Option<string>) {
    id.None? || current.None? || id.value != current.value
  }

  /** An image response carrying the id of the request in flight. */
  predicate Answers(m: Message, current: Option<string>) {
    IsImageResponse(m) && !IdDiffers(m.data.requestId, current)
  }

  /** An answer that ends the wait: it has a picture list (even an empty
      one) or a non-empty error. */
  predicate Decisive(m: Message, current: Option<string>) {
    Answers(m, current) && (m.data.data.imageUrls.Some? || Truthy(m.data.data.error))
  }

  /** The position of the first decisive entry at or after `from`. */
  function FirstDecisive(log: seq<Message>, from: nat, current: Option<string>): (r: Option<nat>)
    requires from <= |log|
    ensures r.Some? ==> from <= r.value < |log| && Decisive(log[r.value], current)
    ensures forall j | from <= j < |log| && (r.None? || j < r.value) :: !Decisive(log[j], current)
    decreases |log| - from
  {
    if from == |log| then None
    else if Decisive(log[from], current) then Some(from)
    else FirstDecisive(log, from + 1, current)
  }

  /** The effect of the decisive entry `m` found at position `i`. */
  function Resolve(s: EditState, m: Message, i: nat): EditState {
    var d := m.data.data;
    var done := s.(isGenerating := false, currentRequestId := None, cursor := i + 1);
    if d.imageUrls.Some? then
      done.(images := d.imageUrls.value, selectedImage := FirstOrEmpty(d.imageUrls.value))
    else done
  }

  /** The message effect: while generating and with unread entries, the
      first entry from the cursor on that answers the current request with
      pictures or an error ends the wait and moves the cursor past it.
      Without such an entry nothing changes, not even the cursor. */
  function Scan(s: EditState, log: seq<Message>): (r: EditState)
    ensures r.text == s.text && r.color == s.color
    ensures r.cursor >= s.cursor && (s.cursor <= |log| ==> r.cursor <= |log|)
    ensures r != s <==>
      s.isGenerating && s.cursor < |log| &&
      exists j | s.cursor <= j < |log| :: Decisive(log[j], s.currentRequestId)
    ensures r != s ==>
      && !r.isGenerating && r.currentRequestId.None?
      && s.cursor < r.cursor <= |log|
      && Decisive(log[r.cursor - 1], s.currentRequestId)
      && (forall j | s.cursor <= j < r.cursor - 1 :: !Decisive(log[j], s.currentRequestId))
      && var d := log[r.cursor - 1].data.data;
         if d.imageUrls.Some? then r.images == d.imageUrls.value && r.selectedImage == FirstOrEmpty(r.images)
         else r.images == s.images && r.selectedImage == s.selectedImage
  {
    if !(s.isGenerating && |log| > s.cursor) then s
    else
      match FirstDecisive(log, s.cursor, s.currentRequestId)
      case None => s
      case Some(i) => Resolve(s, log[i], i)
  }

  /** The scan as the source writes it: a loop from the cursor that skips
      other events and other requests and stops at the first decisive
      entry. */
  method ScanMessages(s: EditState, log: seq<Message>) returns (r: EditState)
    ensures r == Scan(s, log)
  {
    r := s;
    if s.isGenerating && |log| > s.cursor {
      var i := s.cursor;
      while i < |log|
        invariant s.cursor <= i <= |log|
        invariant FirstDecisive(log, s.cursor, s.currentRequestId) == FirstDecisive(log, i, s.currentRequestId)
        invariant r == s
      {
        var message := log[i];
        if message.event == "GENERATE_IMAGE_response" {
          var response := message.data;
          if IdDiffers(response.requestId, s.currentRequestId) {
            i := i + 1;
            continue;
          }
          if response.data.imageUrls.Some? {
            var urls := response.data.imageUrls.value;
            r := s.(images := urls, selectedImage := FirstOrEmpty(urls), isGenerating := false,
                    currentRequestId := None, cursor := i + 1);
            break;
          } else if Truthy(response.data.error) {
            r := s.(isGenerating := false, currentRequestId := None, cursor := i + 1);
            break;
          }
        }
        i := i + 1;
      }
    }
  }

  /** "Generate": refused when the text trims to nothing; otherwise the
      trimmed text goes out under the fresh id and the dialog waits for
      that id. */
  function Generate(s: EditState, freshId: string): (r: (EditState, Option<Request>))
    ensures Blank(s.text) <==> r.1.None?
    ensures Blank(s.text) ==> r.0 == s
    ensures !Blank(s.text) ==>
      && r.1 == Some(GenerateImage(Trim(s.text), Some(freshId)))
      && r.0.isGenerating && r.0.currentRequestId == Some(freshId)
      && r.0 == s.(isGenerating := r.0.isGenerating, currentRequestId := r.0.currentRequestId)
  {
    if Trim(s.text) == "" then (s, None)
    else (s.(isGenerating := true, currentRequestId := Some(freshId)),
          Some(GenerateImage(Trim(s.text), Some(freshId))))
  }

  /** "Save": refused without a picture; otherwise hands back the label,
      colour and picture, moves the cursor to the end of the log and drops
      a non-empty current id. The generating flag is left as it is. */
  function Save(s: EditState, logLength: nat): (r: (EditState, Option<Saved>))
    ensures s.selectedImage == "" <==> r.1.None?
    ensures s.selectedImage == "" ==> r.0 == s
    ensures s.selectedImage != "" ==>
      && r.1 == Some(Saved(Sentence.BoxLabel(s.text), s.color, s.selectedImage))
      && r.0.cursor == logLength
      && r.0.isGenerating == s.isGenerating
      && (Truthy(s.currentRequestId) ==> r.0.currentRequestId.None?)
      && (!Truthy(s.currentRequestId) ==> r.0.currentRequestId == s.currentRequestId)
      && r.0 == s.(cursor := r.0.cursor, currentRequestId := r.0.currentRequestId)
  {
    if s.selectedImage == "" then (s, None)
    else
      var current := if Truthy(s.currentRequestId) then None else s.currentRequestId;
      (s.(cursor := logLength, currentRequestId := current),
       Some(Saved(Sentence.BoxLabel(s.text), s.color, s.selectedImage)))
  }

  // ---------------------------------------------------------------------
  // Properties

  /** A decisive entry found in a log is still the first one after the log
      grows. */
  lemma {:induction false} FirstDecisiveStable(log: seq<Message>, more: seq<Message>, from: nat, current: Option<string>)
    requires from <= |log| && FirstDecisive(log, from, current).Some?
    ensures FirstDecisive(log + more, from, current) == FirstDecisive(log, from, current)
    decreases |log| - from
  {
    assert (log + more)[from] == log[from];
    if !Decisive(log[from], current) {
      FirstDecisiveStable(log, more, from + 1, current);
    }
  }

  /** Once the scan has found the answer, later responses do not change
      what it found. */
  lemma ScanStableUnderGrowth(s: EditState, log: seq<Message>, more: seq<Message>)
    requires Scan(s, log) != s
    ensures Scan(s, log + more) == Scan(s, log)
  {
    FirstDecisiveStable(log, more, s.cursor, s.currentRequestId);
    var i := FirstDecisive(log, s.cursor, s.currentRequestId).value;
    assert (log + more)[i] == log[i];
  }

  /** Running the scan again on the same log changes nothing. */
  lemma ScanIdempotent(s: EditState, log: seq<Message>)
    ensures Scan(Scan(s, log), log) == Scan(s, log)
  {
  }

  /** Request and answer: after "Generate" with an id that no unread entry
      carries, a picture response under that id is taken, whatever came in
      before it. */
  lemma GenerateThenAnswer(s: EditState, freshId: string, log: seq<Message>, body: Payload)
    requires !Blank(s.text) && s.cursor <= |log|
    requires forall j | s.cursor <= j < |log| :: log[j].data.requestId != Some(freshId)
    requires body.requestId == Some(freshId) && body.data.imageUrls.Some?
    ensures var waiting := Generate(s, freshId).0;
      var r := Scan(waiting, log + [Message("GENERATE_IMAGE_response", body)]);
      && r.images == body.data.imageUrls.value
      && r.selectedImage == FirstOrEmpty(body.data.imageUrls.value)
      && !r.isGenerating && r.currentRequestId.None?
      && r.cursor == |log| + 1
  {
    var waiting := Generate(s, freshId).0;
    var full := log + [Message("GENERATE_IMAGE_response", body)];
    assert Decisive(full[|log|], waiting.currentRequestId);
    forall j | waiting.cursor <= j < |log|
      ensures !Decisive(full[j], waiting.currentRequestId)
    {
      assert full[j] == log[j];
    }
  }

  /** A response under any other id, or on another event, leaves the
      waiting dialog as it is. */
  lemma OtherAnswersIgnored(s: EditState, freshId: string, m: Message)
    requires !Blank(s.text) && s.cursor == 0
    requires !IsImageResponse(m) || m.data.requestId != Some(freshId)
    ensures var waiting := Generate(s, freshId).0;
      Scan(waiting, [m]) == waiting
  {
  }

  /** Saving while a picture request is in flight leaves the dialog
      generating with no current id, so no later response that carries an
      id, or none at all, can end the wait. A response with a JSON `null`
      id is not represented here; it would end the wait. */
  lemma SaveWhileGeneratingStalls(s: EditState, logLength: nat, log: seq<Message>)
    requires s.isGenerating && s.selectedImage != "" && Truthy(s.currentRequestId)
    ensures var r := Save(s, logLength).0;
      r.isGenerating && Scan(r, log) == r
  {
  }

  /** Saving an unchanged dialog on a tile with a picture and a trimmed,
      non-empty text writes back the same text, colour and picture. */
  lemma OpenThenSaveKeepsBox(box: BoxInfo, logLength: nat)
    requires box.image != "" && box.text != "" && Trim(box.text) == box.text
    ensures Save(Open(box), logLength).1 == Some(Saved(box.text, box.color, box.image))
  {
  }
}

=== FILE: home_messages.dfy ===
/** The server traffic of app/screens/HomeScreen.tsx: the guards on
    "Predict" and "Speak", the effect that reacts to the newest log entry,
    and choosing a predicted sentence. Playing audio and the toasts are
    outputs here, not behaviour. */
module HomeMessages {
  import opened Wrappers
  import opened Text
  import opened Connection
  import Board
  import BarSettings

  /** The prediction dialog and the last entry the effect handled, named by
      its position: the log only grows, so a position names one entry. */
  datatype Inbox = Inbox(predictOptions: seq<string>, predictVisible: bool, lastProcessed: Option<nat>)

  function InitialInbox(): Inbox {
    Inbox([], false, None)
  }

  /** What the response effect does besides updating the inbox. */
  datatype Reaction =
    | NoReaction
    | PlayAudio(url: string)
    | ShowOptions(options: seq<string>)
    | PredictError(message: string)
    | OtherError(message: string)

  /** "Predict": refused when the sentence trims to nothing; otherwise the
      sentence goes out as it is, untrimmed. Nothing checks the
      connection. */
  function PredictRequest(sentence: string): (r: Option<Request>)
    ensures r.None? <==> Blank(sentence)
    ensures r.Some? ==> r.value == Predict(sentence)
  {
    if Trim(sentence) == "" then None else Some(Predict(sentence))
  }

  datatype SpeakOutcome = NoVoice | NoText | Offline | SpeakSent(request: Request)

  /** The voice of the selected button: its uri when the index is in range
      and the uri is a non-empty string. */
  function SelectedVoice(buttons: seq<BarSettings.VoiceButton>, index: int): (r: Option<string>)
    ensures r.Some? <==> 0 <= index < |buttons| && Truthy(buttons[index].uri)
    ensures r.Some? ==> r.value != "" && Some(r.value) == buttons[index].uri
  {
    if 0 <= index < |buttons| && Truthy(buttons[index].uri) then buttons[index].uri else None
  }

  /** "Speak": refused without a voice, then without text, then without a
      connection, in that order; otherwise the voice recording and the
      untrimmed sentence go out. */
  function Speak(buttons: seq<BarSettings.VoiceButton>, index: int, sentence: string, isConnected: bool): (r: SpeakOutcome)
    ensures r == NoVoice <==> SelectedVoice(buttons, index).None?
    ensures r == NoText <==> SelectedVoice(buttons, index).Some? && Blank(sentence)
    ensures r == Offline <==> SelectedVoice(buttons, index).Some? && !Blank(sentence) && !isConnected
    ensures r.SpeakSent? <==> SelectedVoice(buttons, index).Some? && !Blank(sentence) && isConnected
    ensures r.SpeakSent? ==> r.request == Synthesise(SelectedVoice(buttons, index).value, sentence)
  {
    var voice := SelectedVoice(buttons, index);
    if voice.None? then NoVoice
    else if Trim(sentence) == "" then NoText
    else if !isConnected then Offline
    else SpeakSent(Synthesise(voice.value, sentence))
  }

  /** The response effect, with the error text read by `errorOf`. Only the
      newest entry is looked at, and only once: a synthesis answer with a
      non-empty audio url is played; otherwise a prediction answer with an
      option list opens the prediction dialog; otherwise an error is
      reported, for a prediction answer or any other. */
  function ReactWith(inbox: Inbox, log: seq<Message>, errorOf: Message -> Option<string>): (r: (Inbox, Reaction))
    ensures |log| == 0 || inbox.lastProcessed == Some(|log| - 1) ==> r == (inbox, NoReaction)
    ensures |log| > 0 ==> r.0.lastProcessed == Some(|log| - 1)
    ensures r.0.predictOptions != inbox.predictOptions ==> r.1.ShowOptions?
    ensures r.1.ShowOptions? ==> r.0 == Inbox(r.1.options, true, Some(|log| - 1))
    ensures !r.1.ShowOptions? ==> r.0.predictOptions == inbox.predictOptions && r.0.predictVisible == inbox.predictVisible
    ensures |log| > 0 && inbox.lastProcessed != Some(|log| - 1) ==>
      var m := log[|log| - 1];
      var audio := m.data.requestType == Some("SYNTHESISE") && Truthy(m.data.data.audioUrl);
      var options := m.data.requestType == Some("PREDICT") && m.data.data.options.Some?;
      var predictFailed := m.data.requestType == Some("PREDICT") && Truthy(errorOf(m));
      && (r.1.PlayAudio? <==> audio)
      && (r.1.PlayAudio? ==> r.1.url == m.data.data.audioUrl.value)
      && (r.1.ShowOptions? <==> !audio && options)
      && (r.1.ShowOptions? ==> r.1.options == m.data.data.options.value)
      && (r.1.PredictError? <==> !audio && !options && predictFailed)
      && (r.1.PredictError? ==> r.1.message == errorOf(m).value)
      && (r.1.OtherError? <==> !audio && !options && !predictFailed && Truthy(errorOf(m)))
      && (r.1.OtherError? ==> r.1.message == errorOf(m).value)
  {
    if |log| == 0 || inbox.lastProcessed == Some(|log| - 1) then (inbox, NoReaction)
    else
      var k := |log| - 1;
      var m := log[k];
      var handled := inbox.(lastProcessed := Some(k));
      if m.data.requestType == Some("SYNTHESISE") && Truthy(m.data.data.audioUrl) then
        (handled, PlayAudio(m.data.data.audioUrl.value))
      else if m.data.requestType == Some("PREDICT") && m.data.data.options.Some? then
        (handled.(predictOptions := m.data.data.options.value, predictVisible := true),
         ShowOptions(m.data.data.options.value))
      else if m.data.requestType == Some("PREDICT") && Truthy(errorOf(m)) then
        (handled, PredictError(errorOf(m).value))
      else if Truthy(errorOf(m)) then
        (handled, OtherError(errorOf(m).value))
      else (handled, NoReaction)
  }

  /** The error the source reads: a field `error` on the log entry itself.
      Entries hold only the event name and the body, so it is always
      absent. */
  function EntryError(m: Message): Option<string> {
    None
  }

  /** The error in the response body. */
  function BodyError(m: Message): Option<string> {
    m.data.error
  }

  /** The response effect as written. */
  function ReactAsWritten(inbox: Inbox, log: seq<Message>): (Inbox, Reaction) {
    ReactWith(inbox, log, EntryError)
  }

  /** The response effect reading the error from the response body. */
  function React(inbox: Inbox, log: seq<Message>): (Inbox, Reaction) {
    ReactWith(inbox, log, BodyError)
  }

  /** As written, the effect never reports an error, whatever arrives. */
  lemma AsWrittenNeverReportsErrors(inbox: Inbox, log: seq<Message>)
    ensures !ReactAsWritten(inbox, log).1.PredictError?
    ensures !ReactAsWritten(inbox, log).1.OtherError?
  {
  }

  /** A failed prediction: a prediction answer with no options and an
      error text. As written it passes without a word; read from the body,
      the error is reported. */
  lemma AsWrittenDropsPredictError()
    ensures var failed := Message("PREDICT_response",
      Payload(Some("PREDICT"), None, Some("model unavailable"), ResultData(None, None, None, None)));
      && ReactAsWritten(InitialInbox(), [failed]).1 == NoReaction
      && React(InitialInbox(), [failed]).1 == PredictError("model unavailable")
  {
  }

  /** With the error read from the body, every failed prediction answer
      that is new is reported with its text. */
  lemma ReportsPredictErrors(inbox: Inbox, log: seq<Message>)
    requires |log| > 0 && inbox.lastProcessed != Some(|log| - 1)
    requires var m := log[|log| - 1];
      m.data.requestType == Some("PREDICT") && m.data.data.options.None? && Truthy(m.data.error)
    ensures React(inbox, log).1 == PredictError(log[|log| - 1].data.error.value)
    ensures React(inbox, log).0 == inbox.(lastProcessed := Some(|log| - 1))
  {
  }

  /** Each entry is handled at most once: running the effect again on the
      same log does nothing more. */
  lemma ReactOnce(inbox: Inbox, log: seq<Message>)
    ensures var first := React(inbox, log).0;
      React(first, log) == (first, NoReaction)
  {
  }

  /** Choosing a predicted sentence replaces the whole sentence and closes
      the prediction dialog. */
  function SelectPredictOption(b: Board.Board, inbox: Inbox, option: string): (r: (Board.Board, Inbox))
    ensures r.0 == b.(sentence := option)
    ensures r.1 == inbox.(predictOptions := [], predictVisible := false)
  {
    (b.(sentence := option), inbox.(predictOptions := [], predictVisible := false))
  }

  /** The prediction round trip: a non-blank sentence sent while connected
      goes out on "PREDICT"; an answer with options opens the dialog with
      them; choosing one makes it the sentence and closes the dialog. */
  lemma PredictRoundTrip(c: Conn, b: Board.Board, inbox: Inbox, log: seq<Message>, body: Payload, i: nat)
    requires c.hasSocket && c.isConnected && !Blank(b.sentence)
    requires inbox.lastProcessed.None? || inbox.lastProcessed.value < |log|
    requires body.requestType == Some("PREDICT") && body.data.options.Some? && i < |body.data.options.value|
    ensures Send(c, PredictRequest(b.sentence).value) == Some(Emitted("PREDICT", Predict(b.sentence)))
    ensures var answered := React(inbox, log + [Message("PREDICT_response", body)]);
      var option := body.data.options.value[i];
      && answered.1 == ShowOptions(body.data.options.value)
      && answered.0.predictVisible
      && var chosen := SelectPredictOption(b, answered.0, option);
         chosen.0.sentence == option && !chosen.1.predictVisible && chosen.1.predictOptions == []
  {
  }

  /** A prediction typed while offline is dropped by the socket without a
      message to the user, unlike "Speak", which refuses with one. */
  lemma OfflinePredictDropped(c: Conn, buttons: seq<BarSettings.VoiceButton>, index: int, sentence: string)
    requires !c.isConnected && !Blank(sentence)
    requires SelectedVoice(buttons, index).Some?
    ensures PredictRequest(sentence).Some? && Send(c, PredictRequest(sentence).value).None?
    ensures Speak(buttons, index, sentence, c.isConnected) == Offline
  {
  }

  /** What "Speak" sends, the socket delivers: a sent request was checked
      against the same connection flag the socket uses. */
  lemma SpeakDelivered(c: Conn, buttons: seq<BarSettings.VoiceButton>, index: int, sentence: string)
    requires c.hasSocket
    requires Speak(buttons, index, sentence, c.isConnected).SpeakSent?
    ensures var req := Speak(buttons, index, sentence, c.isConnected).request;
      Send(c, req) == Some(Emitted("SYNTHESISE", req))
  {
  }

  /** The home screen's three buttons carry no recording, so "Speak" is
      refused until one is recorded. */
  lemma InitialButtonsCannotSpeak(index: int, sentence: string, isConnected: bool)
    ensures Speak(BarSettings.InitialButtons, index, sentence, isConnected) == NoVoice
  {
  }
}

=== FILE: paging.dfy ===
/** How the home screen splits the tiles on screen into pages
    (`numPages` and `pages` in app/screens/HomeScreen.tsx). The number of
    tiles per page comes from window-size arithmetic and is a parameter
    here. */
module Paging {

  /** `Math.ceil((n + 1) / perPage)`: one slot more than there are tiles,
      for the add tile on the last page. */
  function NumPages(n: nat, perPage: nat): (k: nat)
    requires perPage > 0
    ensures k >= 1
    ensures (k - 1) * perPage <= n < k * perPage
  {
    var k := (n + perPage) / perPage;
    assert n + perPage == k * perPage + (n + perPage) % perPage;
    assert (k - 1) * perPage == k * perPage - perPage;
    k
  }

  function Min(a: int, b: int): int {
    if a <= b then a else b
  }

  /** `s.slice(from, to)` for 0 <= from <= to: the bounds are clamped to the
      length. */
  function Slice<T>(s: seq<T>, from: nat, to: nat): (r: seq<T>)
    requires from <= to
    ensures |r| <= to - from
    ensures from <= |s| ==> r == s[from..Min(to, |s|)]
  {
    s[Min(from, |s|)..Min(to, |s|)]
  }

  /** Page `k`: the tiles from position k * perPage up to, not including,
      (k + 1) * perPage. */
  function Page<T>(s: seq<T>, perPage: nat, k: nat): seq<T> {
    Slice(s, k * perPage, (k + 1) * perPage)
  }

  /** The first `m` pages. */
  function PagesUpTo<T>(s: seq<T>, perPage: nat, m: nat): (r: seq<seq<T>>)
    ensures |r| == m
  {
    seq(m, k requires 0 <= k < m => Page(s, perPage, k))
  }

  /** The pages laid side by side, first to last. */
  function Flatten<T>(pages: seq<seq<T>>): seq<T> {
    if |pages| == 0 then [] else Flatten(pages[..|pages| - 1]) + pages[|pages| - 1]
  }

  /** `pages`: the tiles on screen cut into NumPages pages. Laid side by
      side they are exactly the tiles, in order; each holds at most perPage
      tiles, every page but the last is full, and the last always has room
      for the add tile. */
  function Pages<T>(s: seq<T>, perPage: nat): (r: seq<seq<T>>)
    requires perPage > 0
    ensures |r| == NumPages(|s|, perPage)
    ensures Flatten(r) == s
    ensures forall k | 0 <= k < |r| :: |r[k]| <= perPage
    ensures forall k | 0 <= k < |r| - 1 :: |r[k]| == perPage
    ensures |r[|r| - 1]| < perPage
  {
    var m := NumPages(|s|, perPage);
    var r := PagesUpTo(s, perPage, m);
    FlattenPrefix(s, perPage, m);
    assert Min(m * perPage, |s|) == |s|;
    forall k | 0 <= k < m - 1
      ensures |r[k]| == perPage
    {
      MulMono(k + 1, m - 1, perPage);
      assert (k + 1) * perPage == k * perPage + perPage;
    }
    assert (m - 1) * perPage == m * perPage - perPage;
    r
  }

  lemma MulMono(a: nat, b: nat, c: nat)
    requires a <= b
    ensures a * c <= b * c
  {
  }

  /** One page more is one multiple of perPage more. */
  lemma MulSucc(m: nat, perPage: nat)
    requires m > 0
    ensures m * perPage == (m - 1) * perPage + perPage
  {
  }

  /** Page `k` is the stretch of tiles between the clamped bounds. */
  lemma PageIsStretch<T>(s: seq<T>, perPage: nat, k: nat)
    ensures (k + 1) * perPage == k * perPage + perPage
    ensures Page(s, perPage, k) == s[Min(k * perPage, |s|)..Min((k + 1) * perPage, |s|)]
  {
    MulSucc(k + 1, perPage);
  }

  /** The first `m` pages laid side by side are the tiles before position
      m * perPage. */
  lemma {:induction false} FlattenPrefix<T>(s: seq<T>, perPage: nat, m: nat)
    ensures Flatten(PagesUpTo(s, perPage, m)) == s[..Min(m * perPage, |s|)]
  {
    if m > 0 {
      var ps := PagesUpTo(s, perPage, m);
      var a := Min((m - 1) * perPage, |s|);
      var b := Min(m * perPage, |s|);
      assert ps[m - 1] == s[a..b] by {
        PageIsStretch(s, perPage, m - 1);
      }
      assert Flatten(ps[..m - 1]) == s[..a] by {
        assert ps[..m - 1] == PagesUpTo(s, perPage, m - 1);
        FlattenPrefix(s, perPage, m - 1);
      }
      assert s[..a] + s[a..b] == s[..b];
    }
  }
}

=== FILE: sentence.dfy ===
/** The sentence bar of the home screen (app/screens/HomeScreen.tsx) and
    the label rule shared by the box dialogs. */
module Sentence {
  import opened Text

  /** Tapping a tile: its text goes after the sentence, separated by one
      space unless the sentence is empty. */
  function AppendWord(sentence: string, word: string): (r: string)
    ensures sentence == "" ==> r == word
    ensures sentence != "" ==> |r| == |sentence| + 1 + |word|
    ensures sentence != "" ==> r[..|sentence|] == sentence && r[|sentence|] == ' '
    ensures r[|r| - |word|..] == word
  {
    sentence + (if sentence != "" then " " else "") + word
  }

  /** "Delete Letter": `slice(0, -1)`, which drops the last character and
      leaves "" as it is. A character here is a whole code point. */
  function DeleteLetter(sentence: string): (r: string)
    ensures sentence == "" ==> r == ""
    ensures sentence != "" ==> |r| == |sentence| - 1 && r == sentence[..|r|]
  {
    if sentence == "" then "" else sentence[..|sentence| - 1]
  }

  /** "Delete Word": trim, split on single spaces, drop the last piece and
      join the rest with single spaces. The result is the trimmed text up to
      its last space, or "" when the trimmed text has no space. */
  function DeleteWord(sentence: string): (r: string)
    ensures var t := Trim(sentence);
      r == if LastSpace(t) >= 0 then t[..LastSpace(t)] else ""
  {
    DropLastWord(Trim(sentence))
  }

  /** The label a dialog saves: the trimmed text, or "New Box" when that is
      empty. */
  function BoxLabel(text: string): (r: string)
    ensures r != ""
    ensures !Blank(text) ==> r == Trim(text)
    ensures Blank(text) ==> r == "New Box"
  {
    var t := Trim(text);
    if t != "" then t else "New Box"
  }

  /** Deleting a letter undoes typing one. */
  lemma DeleteLetterUndoesType(sentence: string, c: char)
    ensures DeleteLetter(sentence + [c]) == sentence
  {
    assert (sentence + [c])[..|sentence|] == sentence;
  }

  /** A trimmed sentence followed by a space and a word that ends in a
      non-white-space character is trimmed already. */
  lemma TrimmedAfterAppend(sentence: string, word: string)
    requires Trim(sentence) == sentence && sentence != ""
    requires word != "" && !IsWhiteSpace(word[|word| - 1])
    ensures Trim(sentence + " " + word) == sentence + " " + word
  {
    var s := sentence + " " + word;
    assert s[0] == sentence[0];
    assert s[|s| - 1] == word[|word| - 1];
  }

  /** Deleting a word undoes tapping a tile whose text is one word without
      white space, when the sentence was already trimmed. */
  lemma DeleteWordUndoesAppend(sentence: string, word: string)
    requires Trim(sentence) == sentence
    requires word != "" && forall i | 0 <= i < |word| :: !IsWhiteSpace(word[i])
    ensures DeleteWord(AppendWord(sentence, word)) == sentence
  {
    assert NoSpace(word) by {
      forall j | 0 <= j < |word|
        ensures word[j] != ' '
      {
        assert !IsWhiteSpace(word[j]);
      }
    }
    if sentence == "" {
      assert AppendWord(sentence, word) == word;
      NoSpaceNoLast(word);
    } else {
      assert AppendWord(sentence, word) == sentence + " " + word;
      TrimmedAfterAppend(sentence, word);
      LastSpaceAtJoint(sentence, word);
    }
  }
}

=== FILE: seqs.dfy ===
/** `Array.prototype.filter` and the facts about it the handlers rely on. */
module Seqs {

  /** The elements of `s` that `keep` accepts, in their original order. */
  function Filter<T(!new)>(s: seq<T>, keep: T -> bool): (r: seq<T>)
    ensures |r| <= |s|
    ensures forall x :: multiset(r)[x] == if keep(x) then multiset(s)[x] else 0
    ensures forall i | 0 <= i < |r| :: keep(r[i])
    ensures (forall i | 0 <= i < |s| :: keep(s[i])) ==> r == s
  {
    if |s| == 0 then []
    else
      var rest := Filter(s[1..], keep);
      assert s == [s[0]] + s[1..];
      if keep(s[0]) then [s[0]] + rest else rest
  }

  /** Filtering distributes over concatenation, so the kept elements keep
      their relative order. */
  lemma {:induction false} FilterConcat<T(!new)>(a: seq<T>, b: seq<T>, keep: T -> bool)
    ensures Filter(a + b, keep) == Filter(a, keep) + Filter(b, keep)
    decreases |a|
  {
    if |a| > 0 {
      assert (a + b)[1..] == a[1..] + b;
      FilterConcat(a[1..], b, keep);
    } else {
      assert a + b == b;
    }
  }

  /** Filters that agree on every element of `s` keep the same elements. */
  lemma {:induction false} FilterAgree<T(!new)>(s: seq<T>, p: T -> bool, q: T -> bool)
    requires forall i | 0 <= i < |s| :: p(s[i]) == q(s[i])
    ensures Filter(s, p) == Filter(s, q)
    decreases |s|
  {
    if |s| > 0 {
      FilterAgree(s[1..], p, q);
    }
  }
}

=== FILE: settings.dfy ===
/** The settings dialog of app/components/SettingsModal.tsx: a form copied
    from the current settings when the dialog shows, range checks, save and
    reset. The form has the same fields as the settings themselves. */
module Settings {
  import opened Wrappers
  import opened Types
  import Defaults

  /** The range checks: margin 0 to 50, 1 to 20 tiles per row, long press
      of 300 to 2000 milliseconds. The two switches are not checked. */
  predicate IsValid(f: AppSettings) {
    && 0 <= f.boxMargin <= 50
    && 1 <= f.numHorizontalBoxes <= 20
    && 300 <= f.editLongPressDuration <= 2000
  }

  /** The resync effect: when the dialog is visible the form is overwritten
      by the current settings, all five fields. */
  function Resync(form: AppSettings, current: AppSettings, visible: bool): (r: AppSettings)
    ensures visible ==> r == current
    ensures !visible ==> r == form
  {
    if visible then current else form
  }

  /** "Save": refused unless the form passes the range checks; otherwise
      the form becomes the settings. */
  function Save(form: AppSettings): (r: Option<AppSettings>)
    ensures r.Some? <==> IsValid(form)
    ensures r.Some? ==> r.value == form
  {
    if IsValid(form) then Some(form) else None
  }

  /** "Reset": the form and the saved settings both become the defaults,
      without the range check. */
  function Reset(): (r: (AppSettings, AppSettings))
    ensures r.0 == Defaults.DefaultSettings && r.1 == Defaults.DefaultSettings
  {
    (Defaults.DefaultSettings, Defaults.DefaultSettings)
  }

  /** The defaults pass the range checks, so saving right after a reset
      keeps them. */
  lemma ResetThenSave()
    ensures IsValid(Defaults.DefaultSettings)
    ensures Save(Reset().0) == Some(Reset().1)
  {
  }

  /** Opening the dialog and saving at once keeps the settings when they
      are in range and is refused otherwise. */
  lemma OpenThenSave(form: AppSettings, current: AppSettings)
    ensures Save(Resync(form, current, true)) == if IsValid(current) then Some(current) else None
  {
  }

  /** The switches never make a form invalid. */
  lemma SwitchesNotChecked(f: AppSettings, allowExpansion: bool, lockEditing: bool)
    ensures IsValid(f) <==> IsValid(f.(allowExpansion := allowExpansion, lockEditing := lockEditing))
  {
  }

  /** Every field a saved form carries is in range. */
  lemma SavedInRange(form: AppSettings)
    requires Save(form).Some?
    ensures var s := Save(form).value;
      0 <= s.boxMargin <= 50 && 1 <= s.numHorizontalBoxes <= 20
      && 300 <= s.editLongPressDuration <= 2000
  {
  }
}

=== FILE: text.dfy ===
/** The JavaScript string primitives the handlers rely on: `trim()`,
    `split(" ")` and `join(" ")`. */
module Text {

  /** ECMAScript white space and line terminators, the characters `trim()`
      strips. */
  predicate IsWhiteSpace(c: char) {
    || c == '\t' || c == '\n' || c == '\U{000B}' || c == '\U{000C}' || c == '\r'
    || c == ' ' || c == '\U{00A0}' || c == '\U{1680}'
    || ('\U{2000}' <= c <= '\U{200A}')
    || c == '\U{2028}' || c == '\U{2029}' || c == '\U{202F}' || c == '\U{205F}'
    || c == '\U{3000}' || c == '\U{FEFF}'
  }

  /** Every character of `s` is white space (true of ""). */
  predicate Blank(s: string) {
    forall i | 0 <= i < |s| :: IsWhiteSpace(s[i])
  }

  /** Number of leading white-space characters. */
  function LeadingSpace(s: string): (k: nat)
    ensures k <= |s|
    ensures forall i | 0 <= i < k :: IsWhiteSpace(s[i])
    ensures k < |s| ==> !IsWhiteSpace(s[k])
  {
    if |s| == 0 || !IsWhiteSpace(s[0]) then 0 else 1 + LeadingSpace(s[1..])
  }

  /** Length of `s` once trailing white space is dropped. */
  function TrailingSpaceStart(s: string): (k: nat)
    ensures k <= |s|
    ensures forall i | k <= i < |s| :: IsWhiteSpace(s[i])
    ensures k > 0 ==> !IsWhiteSpace(s[k - 1])
  {
    if |s| == 0 || !IsWhiteSpace(s[|s| - 1]) then |s| else TrailingSpaceStart(s[..|s| - 1])
  }

  /** `String.prototype.trim`: `s` without its leading and trailing white space. */
  function Trim(s: string): (r: string)
    ensures |r| <= |s|
    ensures r == "" <==> Blank(s)
    ensures r != "" ==> !IsWhiteSpace(r[0]) && !IsWhiteSpace(r[|r| - 1])
    ensures s == "" || (!IsWhiteSpace(s[0]) && !IsWhiteSpace(s[|s| - 1])) ==> r == s
    ensures exists b, e | 0 <= b <= e <= |s| :: r == s[b..e] && Blank(s[..b]) && Blank(s[e..])
  {
    var e := TrailingSpaceStart(s);
    var b := LeadingSpace(s[..e]);
    assert Blank(s) ==> e == 0;
    assert Blank(s[..b]) by {
      forall i | 0 <= i < b
        ensures IsWhiteSpace(s[..b][i])
      {
        assert s[..b][i] == s[..e][i];
      }
    }
    assert Blank(s[e..]) by {
      forall i | 0 <= i < |s| - e
        ensures IsWhiteSpace(s[e..][i])
      {
        assert s[e..][i] == s[e + i];
      }
    }
    s[b..e]
  }

  /** Trimming twice is trimming once. */
  lemma TrimIdempotent(s: string)
    ensures Trim(Trim(s)) == Trim(s)
  {
  }

  /** Index of the first `' '` in `s` at or after `k`, or `|s|` when there
      is none. */
  function FirstSpaceFrom(s: string, k: nat): (i: nat)
    requires k <= |s|
    ensures k <= i <= |s|
    ensures i < |s| ==> s[i] == ' '
    ensures forall j | k <= j < i :: s[j] != ' '
    decreases |s| - k
  {
    if k == |s| || s[k] == ' ' then k else FirstSpaceFrom(s, k + 1)
  }

  /** Index of the first `' '` in `s`, or `|s|` when there is none. */
  function FirstSpace(s: string): (i: nat)
    ensures i <= |s|
    ensures i < |s| ==> s[i] == ' '
    ensures forall j | 0 <= j < i :: s[j] != ' '
  {
    FirstSpaceFrom(s, 0)
  }

  /** Index of the last `' '` in `s` before `k`, or -1 when there is none. */
  function LastSpaceBefore(s: string, k: nat): (i: int)
    requires k <= |s|
    ensures -1 <= i < k
    ensures i >= 0 ==> s[i] == ' '
    ensures forall j | i < j < k :: s[j] != ' '
  {
    if k == 0 then -1
    else if s[k - 1] == ' ' then k - 1
    else LastSpaceBefore(s, k - 1)
  }

  /** Index of the last `' '` in `s`, or -1 when there is none (as
      `lastIndexOf` reports it). */
  function LastSpace(s: string): (i: int)
    ensures -1 <= i < |s|
    ensures i >= 0 ==> s[i] == ' '
    ensures forall j | i < j < |s| :: s[j] != ' '
  {
    LastSpaceBefore(s, |s|)
  }

  /** The last space is the only position with a space and none after it. */
  lemma LastSpaceUnique(s: string, m: int)
    requires -1 <= m < |s| && (m >= 0 ==> s[m] == ' ')
    requires forall j | m < j < |s| :: s[j] != ' '
    ensures LastSpace(s) == m
  {
  }

  /** The first space is the only position with a space and none before
      it. */
  lemma FirstSpaceUnique(s: string, m: nat)
    requires m <= |s| && (m < |s| ==> s[m] == ' ')
    requires forall j | 0 <= j < m :: s[j] != ' '
    ensures FirstSpace(s) == m
  {
  }

  /** `s` holds no `' '`. */
  predicate NoSpace(s: string) {
    forall j | 0 <= j < |s| :: s[j] != ' '
  }

  /** `s.split(" ")`: the pieces between single spaces, in order; always at
      least one piece, and "" splits into [""]. */
  function Split(s: string): (parts: seq<string>)
    ensures |parts| >= 1
    ensures forall k | 0 <= k < |parts| :: NoSpace(parts[k])
    ensures |parts| == 1 <==> FirstSpace(s) == |s|
    decreases |s|
  {
    var i := FirstSpace(s);
    if i == |s| then [s]
    else
      [s[..i]] + Split(s[i + 1..])
  }

  /** `parts.join(" ")`. */
  function Join(parts: seq<string>): string
  {
    if |parts| == 0 then ""
    else if |parts| == 1 then parts[0]
    else parts[0] + " " + Join(parts[1..])
  }

  /** Splitting on spaces and joining with spaces gives the string back. */
  lemma {:induction false} JoinSplit(s: string)
    ensures Join(Split(s)) == s
    decreases |s|
  {
    var i := FirstSpace(s);
    if i < |s| {
      var rest := s[i + 1..];
      JoinSplit(rest);
      JoinCons(s[..i], Split(rest));
      Recompose(s, i);
    }
  }

  /** Joining space-free, non-empty lists and splitting again gives the list
      back. */
  lemma {:induction false} SplitJoin(parts: seq<string>)
    requires |parts| >= 1
    requires forall k | 0 <= k < |parts| :: NoSpace(parts[k])
    ensures Split(Join(parts)) == parts
    decreases |parts|
  {
    if |parts| > 1 {
      SplitJoin(parts[1..]);
      SplitAtJoint(parts[0], Join(parts[1..]));
      assert parts == [parts[0]] + parts[1..];
    }
  }

  /** The last space of `s` seen from a space at `i`: the last space of the
      rest, shifted, or `i` itself when the rest has none. */
  lemma LastSpaceAfter(s: string, i: nat)
    requires i < |s| && s[i] == ' '
    ensures LastSpace(s) == i + 1 + LastSpace(s[i + 1..])
  {
    var rest := s[i + 1..];
    var l := LastSpace(rest);
    if l >= 0 {
      assert s[i + 1 + l] == rest[l];
    }
    assert forall j | i + 1 + l < j < |s| :: s[j] == rest[j - i - 1];
    LastSpaceUnique(s, i + 1 + l);
  }

  /** A sequence is its prefix, the element at `i` and its suffix. */
  lemma Recompose<T>(s: seq<T>, i: nat)
    requires i < |s|
    ensures s == s[..i] + [s[i]] + s[i + 1..]
  {
  }

  /** A space-free head joined to a tail splits first at the joint. */
  lemma SplitAtJoint(head: string, tail: string)
    requires NoSpace(head)
    ensures Split(head + " " + tail) == [head] + Split(tail)
  {
    var s := head + " " + tail;
    assert s[|head|] == ' ';
    assert forall j | 0 <= j < |head| :: s[j] == head[j];
    FirstSpaceUnique(s, |head|);
    assert s[..|head|] == head;
    assert s[|head| + 1..] == tail;
  }

  /** Joining a list with a new head. */
  lemma JoinCons(a: string, rp: seq<string>)
    requires |rp| >= 1
    ensures Join([a] + rp) == a + " " + Join(rp)
  {
    assert ([a] + rp)[1..] == rp;
  }

  /** Dropping the last piece of a list with a new head. */
  lemma JoinDropLastCons(a: string, rp: seq<string>)
    requires |rp| >= 2
    ensures var parts := [a] + rp;
      Join(parts[..|parts| - 1]) == a + " " + Join(rp[..|rp| - 1])
  {
    var parts := [a] + rp;
    var rd := rp[..|rp| - 1];
    assert parts[..|parts| - 1] == [a] + rd;
    assert ([a] + rd)[1..] == rd;
  }

  lemma PrefixThroughSpace(s: string, i: nat, l: nat)
    requires i + 1 + l <= |s| && s[i] == ' '
    ensures s[..i + 1 + l] == s[..i] + " " + s[i + 1..][..l]
  {
  }

  /** A space-free piece has no last space. */
  lemma NoSpaceNoLast(s: string)
    requires NoSpace(s)
    ensures LastSpace(s) == -1
  {
    LastSpaceUnique(s, -1);
  }

  /** Joining two or more pieces puts a space in the text. */
  lemma JoinHasSpace(parts: seq<string>)
    requires |parts| >= 2
    ensures LastSpace(Join(parts)) >= 0
  {
    var t := Join(parts);
    JoinCons(parts[0], parts[1..]);
    assert parts == [parts[0]] + parts[1..];
    assert t[|parts[0]|] == ' ';
  }

  /** A space-free head in front of text that has a space: the last space
      moves along by the head and its space, and so does the text before
      it. */
  lemma LastSpaceBehindHead(head: string, t: string)
    requires LastSpace(t) >= 0
    ensures var s := head + " " + t;
      && LastSpace(s) == |head| + 1 + LastSpace(t)
      && s[..LastSpace(s)] == head + " " + t[..LastSpace(t)]
  {
    var s := head + " " + t;
    assert s[|head|] == ' ' && s[|head| + 1..] == t;
    LastSpaceAfter(s, |head|);
    PrefixThroughSpace(s, |head|, LastSpace(t));
  }

  /** A space-free head in front of space-free text: the joint is the last
      space. */
  lemma LastSpaceAtJoint(head: string, t: string)
    requires NoSpace(t)
    ensures var s := head + " " + t;
      LastSpace(s) == |head| && s[..LastSpace(s)] == head
  {
    var s := head + " " + t;
    assert s[|head|] == ' ' && s[|head| + 1..] == t;
    LastSpaceAfter(s, |head|);
    NoSpaceNoLast(t);
    assert s[..|head|] == head;
  }

  /** Dropping the last piece of space-free pieces keeps exactly their
      joined text before its last space, or nothing when it has none. */
  lemma {:induction false} JoinDropLastParts(parts: seq<string>)
    requires |parts| >= 1 && forall k | 0 <= k < |parts| :: NoSpace(parts[k])
    ensures var s := Join(parts);
      Join(parts[..|parts| - 1]) == if LastSpace(s) >= 0 then s[..LastSpace(s)] else ""
    decreases |parts|
  {
    var head := parts[0];
    if |parts| == 1 {
      NoSpaceNoLast(head);
      assert parts[..0] == [];
    } else {
      var rp := parts[1..];
      var t := Join(rp);
      assert Join(parts) == head + " " + t by {
        assert parts == [head] + rp;
        JoinCons(head, rp);
      }
      if |rp| == 1 {
        assert Join(parts[..|parts| - 1]) == head by {
          assert parts[..|parts| - 1] == [head];
        }
        assert NoSpace(t) by {
          assert t == parts[1];
        }
        LastSpaceAtJoint(head, t);
      } else {
        assert LastSpace(t) >= 0 by {
          JoinHasSpace(rp);
        }
        assert Join(rp[..|rp| - 1]) == t[..LastSpace(t)] by {
          JoinDropLastParts(rp);
        }
        assert Join(parts[..|parts| - 1]) == head + " " + Join(rp[..|rp| - 1]) by {
          assert parts == [head] + rp;
          JoinDropLastCons(head, rp);
        }
        LastSpaceBehindHead(head, t);
      }
    }
  }

  /** `JoinDropLastParts`, for space-free pieces known to join to `s`. */
  lemma JoinDropLastOf(parts: seq<string>, s: string)
    requires |parts| >= 1 && forall k | 0 <= k < |parts| :: NoSpace(parts[k])
    requires Join(parts) == s
    ensures Join(parts[..|parts| - 1]) == if LastSpace(s) >= 0 then s[..LastSpace(s)] else ""
  {
    JoinDropLastParts(parts);
  }

  /** `split(" ")`, drop the last piece, `join(" ")`: the text before its
      last space, or "" when it has none. */
  function DropLastWord(s: string): (r: string)
    ensures r == if LastSpace(s) >= 0 then s[..LastSpace(s)] else ""
  {
    var words := Split(s);
    JoinSplit(s);
    JoinDropLastOf(words, s);
    Join(words[..|words| - 1])
  }
}

=== FILE: types.dfy ===
/** The records of app/types.tsx and the colour palette of app/design/Colors.tsx. */
module Types {
  import opened Wrappers

  datatype BoxType = TalkBox | OptionBox | GenericBox | FolderBox

  /** One tile of the board. `folderId` is present only on folder tiles and
      names the folder they open. */
  datatype BoxInfo = BoxInfo(
    id: int,
    boxType: BoxType,
    text: string,
    image: string,
    color: string,
    folderId: Option<string>)

  /** A folder and the tiles it holds; `uuid` is what a folder tile points at. */
  datatype FolderInfo = FolderInfo(uuid: string, text: string, containedBoxes: seq<BoxInfo>)

  /** The user-adjustable layout settings. The sliders move in whole steps,
      so the numeric fields are integers. */
  datatype AppSettings = AppSettings(
    boxMargin: int,
    numHorizontalBoxes: int,
    editLongPressDuration: int,
    allowExpansion: bool,
    lockEditing: bool)

  const Red: string := "#FFB3A7"
  const Blue: string := "#A7C7FF"
  const Green: string := "#A7FFB3"
  const Yellow: string := "#FFF3A7"
  const Purple: string := "#D1A7FF"
  const Orange: string := "#FFCBA7"
  const Pink: string := "#FFA7D1"
  const Gray: string := "#E0E0E0"
}

=== FILE: wrappers.dfy ===
/** The optional-value wrapper used for the source's `null`, `undefined` and
    not-found results. */
module Wrappers {

  datatype Option<+T> = None | Some(value: T) {

    /** The contained value, or `default` when there is none. */
    function GetOr(default: T): T {
      match this
      case Some(v) => v
      case None => default
    }
  }

  /** JavaScript truthiness of an optional string: present and non-empty. */
  predicate Truthy(o: Option<string>) {
    o.Some? && o.value != ""
  }
}
